=== FILE: README.md ===
# CRUD layer of turbo_templating, modelled in Dafny

This project models the generic CRUD layer of a Rails application. The layer
has two parallel implementations, and both work on a table of records and on
`Rails.cache`:

- `GenericCrudInteractor` is an interactor that dispatches on an action
  symbol. It can create, read, update or delete one record, or fetch one
  cached page of records.
- `CrudService` is a per-model service. Its `find` and `list` are
  cache-aside. Its `create`, `update` and `destroy` invalidate the model's
  `crud/<name>/` cache namespace.

The project also models three Tailwind class-string builders from
`ApplicationHelper`.

Everything is pure functions over immutable values:

- The table is `Records.Db`: rows keyed by primary key, plus the next
  auto-increment id.
- The cache is `RailsCache.Cache`: a string-keyed map of entries, each with an
  expiry time.
- An operation takes a `State` (table and cache) and returns its outcome
  together with the new `State`.

Some collaborators live outside this code: ActiveRecord validation, save
callbacks that halt a save, destroy callbacks, Ransack, the database's order
for unordered queries, MD5 of the list SQL, and Turbo rendering. They are
fields of `Records.ModelClass` and `CrudService.Service`. Every property holds
for every choice of them that meets the member's `requires`. For the
orderings that means `Records.WellFormed`, described below. The clock is a
parameter `now`.

Modules:

| module | models |
|---|---|
| `Maybe` | `nil` as `Option` |
| `Text` | `Integer#to_s` with its inverse, `Array#join`, `Array#to_sentence`, space-separated class lists |
| `Records` | rows, `find_by`, inserting, `where`, relations and their order, `as_json`, `format_record(s)` |
| `Paging` | the offset/limit window of one page |
| `RailsCache` | `fetch` with expiry, `delete`, `delete_matched` |
| `GenericCrudInteractor` | app/interactors/generic_crud_interactor.rb |
| `CrudService` | app/services/crud_service.rb |
| `Comparison` | where the two implementations differ |
| `ApplicationHelper` | `button_color_classes`, `form_input_classes`, `p_tag_classes` |

Every operation that reads rows in an order the database chooses requires
`Records.WellFormed(m)`. SQL leaves that order unspecified, but the result
still holds exactly the selected rows, so both orderings must be permutations.
The order may differ from one query to the next: each ordering function is
also given the query's OFFSET and LIMIT (`Records.Slice`). So two page queries
over the same rows need not see them in the same order.

Every operation that persists rows requires `Records.Valid(db)`: every primary
key is below the next auto-increment id. Every operation preserves it. Ruby
symbols are modelled by their names, so `:json` is `"json"`.

## Model

| member | source | states |
|---|---|---|
| GenericCrudInteractor.Call | app/interactors/generic_crud_interactor.rb:15-29 | An unknown action fails with "Unknown action" and changes neither table nor cache. Only `fetch` can change the cache. `read` and `fetch` never change the table. A single-record success comes only from create/read/update/delete. |
| GenericCrudInteractor.CreateRecord | app/interactors/generic_crud_interactor.rb:36-43 | Invalid attributes fail with the validation messages joined as a sentence, and nothing changes. A save halted by a callback also fails with its messages as a sentence, and nothing changes. Otherwise exactly one row is added under a fresh id, which the result carries. The cache is never touched. |
| GenericCrudInteractor.ReadRecord | app/interactors/generic_crud_interactor.rb:45-52 | A missing or nil id fails with "Record not found". A present id succeeds with that row, formatted. The state is unchanged in both cases. |
| GenericCrudInteractor.UpdateRecord | app/interactors/generic_crud_interactor.rb:54-61 | A missing id fails with "Record not found" and changes nothing. An invalid merge fails with its messages and changes nothing. A save of the merge halted by a callback fails with its messages and changes nothing. Otherwise exactly that row is replaced with the merged attributes and the set of ids is kept. The cache is never touched. |
| GenericCrudInteractor.DeleteRecord | app/interactors/generic_crud_interactor.rb:63-70 | A missing id fails with "Record not found" and changes nothing. A destroy aborted by a callback fails with its messages and changes nothing. Otherwise exactly that row is removed, and the result carries its last snapshot. The cache is never touched. |
| GenericCrudInteractor.FetchRecords | app/interactors/generic_crud_interactor.rb:72-74 | The key is the caller's `cache_key`, else the default key. A live entry is returned and the state is unchanged. A miss computes the page, stores it until `now + expires_in` (default 300 seconds) and returns it. The table is never changed. |
| GenericCrudInteractor.FetchMissWindow | app/interactors/generic_crud_interactor.rb:75-96 | On a miss, in every format, the result is the Pagy info (count = the number of table rows the filter keeps, page default 1, items default 20) with the formatted window at offset `(page-1)*items` of the scope. The window holds at most `items` rows, each a table row the filter keeps. Under `:json` they are one `as_json` hash per row, in order. Under any format other than `:json` and `:turbo_stream` they are the rows themselves. |
| GenericCrudInteractor.PagyPage | app/interactors/generic_crud_interactor.rb:90-92 | The requested page, or 1 when none is given. |
| GenericCrudInteractor.PagyItems | app/interactors/generic_crud_interactor.rb:94-96 | The requested page size, or 20 when none is given. |
| GenericCrudInteractor.DefaultCacheKey | app/interactors/generic_crud_interactor.rb:98-106 | The default key starts with the model name followed by `/page:`. |
| GenericCrudInteractor.DefaultKeyIsJoin | app/interactors/generic_crud_interactor.rb:98-106 | The default key is the five segments (name, `page:p`, `items:n`, `ransack:<params>`, `format:<fmt>`) joined by "/". |
| GenericCrudInteractor.Filtered | app/interactors/generic_crud_interactor.rb:75-79 | The selected rows are exactly the table rows that Ransack keeps, or all rows when the parameters are absent or empty. They are in key order. |
| GenericCrudInteractor.FilteredCount | app/interactors/generic_crud_interactor.rb:81 | `scope.count` is the number of distinct table ids the filter keeps. |
| GenericCrudInteractor.Scope | app/interactors/generic_crud_interactor.rb:75-81 | The scope is a permutation of the filtered rows, in whatever order the database returns them to this page's query. It holds exactly the table rows the filter keeps. |
| GenericCrudInteractor.PageRecords | app/interactors/generic_crud_interactor.rb:81 | Every paged row is a table row the filter keeps. A real page holds at most `items` rows. |
| GenericCrudInteractor.ComputePage | app/interactors/generic_crud_interactor.rb:80-86 | The cached pair's Pagy info has the number of rows the filter keeps, with the resolved page and size. Its records are the page's rows as `format_records` gives them: one `as_json` hash per row, in order, under `:json`, and the rows themselves under a format other than `:json` and `:turbo_stream`. |
| GenericCrudInteractor.CreateThenRead | app/interactors/generic_crud_interactor.rb:36-52 | After a successful create, reading the new id in the same format returns exactly what the create returned, and changes nothing. |
| GenericCrudInteractor.FetchHitIgnoresStore | app/interactors/generic_crud_interactor.rb:74 | On a hit, the answer does not depend on the table. Under formats other than `:json` and `:turbo_stream` this holds for the cached snapshot only (see "Left out"). |
| GenericCrudInteractor.RepeatedFetchIsStable | app/interactors/generic_crud_interactor.rb:74 | A second `fetch` within the first one's lifetime returns the same result and changes nothing. Under formats other than `:json` and `:turbo_stream` this holds for the cached snapshot only (see "Left out"). |
| GenericCrudInteractor.DefaultKeySeparatesPages | app/interactors/generic_crud_interactor.rb:98-106 | Requests that differ only in the page get different default keys. |
| GenericCrudInteractor.DefaultKeySeparatesItems | app/interactors/generic_crud_interactor.rb:98-106 | Requests that differ only in the page size get different default keys. |
| GenericCrudInteractor.WritesKeepCache | app/interactors/generic_crud_interactor.rb:36-70 | Any sequence of non-fetch calls leaves the cache exactly as it was. |
| GenericCrudInteractor.CachedFetchSurvivesWrites | app/interactors/generic_crud_interactor.rb:36-74 | After any sequence of writes, a `fetch` whose entry is still live returns the entry cached before those writes. Under formats other than `:json` and `:turbo_stream` this holds for the cached snapshot only (see "Left out"). |
| Records.FindBy | app/services/crud_service.rb:16 | `find_by(id:)` finds something exactly when the id is present, and then it finds that row. |
| Records.Insert | app/services/crud_service.rb:44 | A created row takes a fresh id, the table grows by exactly that row, and validity is kept. |
| Records.Where | app/interactors/generic_crud_interactor.rb:76-79 | Filtering keeps exactly the accepted rows, never adds any, and keeps id order. |
| Records.LoadById | app/services/crud_service.rb:88 | A relation ordered by `id asc` loads exactly the rows that satisfy its conditions, in strictly ascending id order, in every query whatever its offset and limit. |
| Records.WhereKeepsAll | app/interactors/generic_crud_interactor.rb:76-79 | A filter that accepts every row returns the rows unchanged, in order. |
| Records.JsonRoundTrip | app/interactors/generic_crud_interactor.rb:111 | A record without an "id" column can be read back from its `as_json` hash. |
| Records.FormatRecord | app/interactors/generic_crud_interactor.rb:108-117 | `:json` gives the record's `as_json`. Formats other than `:json` and `:turbo_stream` give the record itself. |
| Records.Matching | app/services/crud_service.rb:98 | A relation selects exactly the table rows that satisfy all its conditions, in key order. This is what `query.count` counts. |
| Records.Load | app/services/crud_service.rb:100 | Whatever its order, and whatever the query's offset and limit, a relation loads a permutation of the rows it selects. |
| Records.FormatRecords | app/interactors/generic_crud_interactor.rb:119-128 | `:json` gives one hash per record, in order, each the record's `format_record`. Formats other than `:json` and `:turbo_stream` give the records unchanged. |
| Paging.PageOf | app/interactors/generic_crud_interactor.rb:81 | For page and items at least 1, a page holds at most `items` rows, those at positions `(page-1)*items + i`. It is full when the rows reach that far. In this model it is empty past the end, where Pagy raises instead (see "Left out"). |
| Paging.ConsecutivePages | app/services/crud_service.rb:100 | Page p followed by page p+1 is the window of twice the size at page p's offset, so pages tile the rows. |
| RailsCache.Fetch | app/services/crud_service.rb:15-17 | A live entry is returned and the cache is unchanged. Otherwise the block's value is returned and stored under the key until `now + ttl`. |
| RailsCache.Delete | app/services/crud_service.rb:59 | The key is gone. Every other entry is kept unchanged, and no key is added. |
| RailsCache.FetchThenHit | app/services/crud_service.rb:15 | After a miss, the key is live for `ttl`. While it is live, a second `fetch` returns the first one's value whatever its block would compute, and changes nothing. |
| RailsCache.DeleteMatched | app/services/crud_service.rb:120 | No remaining key has the prefix. Every key without it is kept unchanged. |
| Text.ParseNatToString | app/services/crud_service.rb:110 | The decimal spelling of an id reads back as the same number. |
| Text.IntToStringInjective | app/interactors/generic_crud_interactor.rb:101-102 | Different integers interpolate to different strings. |
| Text.ToSentence | app/interactors/generic_crud_interactor.rb:41 | No messages give "". One message gives itself. Otherwise the sentence starts with the first message and ends with the last. |
| CrudService.DefaultFindKey | app/services/crud_service.rb:109-111 | The find key lies under `crud/<name>/`. |
| CrudService.DefaultListKey | app/services/crud_service.rb:113-117 | The list key lies under `crud/<name>/`. |
| CrudService.FindKeysSeparateIds | app/services/crud_service.rb:109-111 | Different ids get different find keys. |
| CrudService.FindKeysAreNotListKeys | app/services/crud_service.rb:109-117 | No find key equals a list key. |
| CrudService.EnsureOrdered | app/services/crud_service.rb:84-89 | A relation with an order is returned unchanged. One without gets `id asc` and keeps its conditions. |
| CrudService.ListQuery | app/services/crud_service.rb:26-30 | The query keeps the base scope's conditions and adds the given ones when present. It keeps the scope's order, or gets `id asc` when there is none. |
| CrudService.Paginate | app/services/crud_service.rb:92-103 | Pagy counts every row the query selects. The page defaults to 1 and the items to `Pagy::VARS[:items]`. The records are the window at offset `(page-1)*items`, of width `items`, of the rows the query loads with that OFFSET and LIMIT. Every returned record is a table row satisfying the query's conditions. A real page holds at most `items` of them. |
| CrudService.FindRecordForUpdate | app/services/crud_service.rb:105-107 | The record is found exactly when the id is in the table, and it is that row. The cache is not a parameter, so it is never consulted. |
| CrudService.Find | app/services/crud_service.rb:12-21 | With caching off, it reads the table. With caching on, a live entry under the caller's key or `crud/<name>/<id>` is returned unchanged. On a miss, the `find_by` result (nil included) is stored for 900 seconds. The table never changes. |
| CrudService.List | app/services/crud_service.rb:25-41 | It pages through the filtered, ordered query. With caching on, it returns a live entry under the caller's key or the list key, or stores the page for 900 seconds. The table never changes. |
| CrudService.ListPageIsIdOrdered | app/services/crud_service.rb:25-103 | With no order of its own, the listed rows are the matching rows in ascending id order, whatever the page's offset and limit. The page is their window at `(page-1)*items` (page default 1, items default `Pagy::VARS[:items]`) and is itself in id order. |
| CrudService.ListPagesTile | app/services/crud_service.rb:25-103 | With no order of its own, page p followed by page p+1 is the window of twice the size at page p's offset of the matching rows, so consecutive pages neither repeat nor skip a row. |
| CrudService.IdOrderedPage | app/services/crud_service.rb:92-103 | Under `id asc` a page is the window at its offset of the matching rows, for any query. |
| CrudService.ExpireCacheForModel | app/services/crud_service.rb:119-121 | Every entry under `crud/<name>/` is removed and every other entry is kept unchanged. |
| CrudService.Create | app/services/crud_service.rb:43-49 | Invalid attributes raise `ServiceError` "Create failed: Validation failed: …" with table and cache unchanged. A save halted by a callback raises `RecordNotSaved`, which the `RecordInvalid` rescue does not catch, with table and cache unchanged. Otherwise exactly one row is added under a fresh id, the namespace is cleared and every other cache entry is kept. |
| CrudService.ExpireAfterWrite | app/services/crud_service.rb:57-60 | The explicit or default find key is gone, so is every key under the namespace, and every other entry is kept. |
| CrudService.Update | app/services/crud_service.rb:51-65 | A missing id returns nil and changes nothing. An invalid merge raises `ServiceError` "Update failed: …" and changes nothing. A halted save of the merge raises `RecordNotSaved`, not caught by the rescue, and changes nothing. Otherwise the row is replaced with the merged attributes and the find key and the namespace are expired. |
| CrudService.Destroy | app/services/crud_service.rb:67-79 | A missing id returns false and changes nothing. An aborted destroy raises `RecordNotDestroyed` and changes nothing. Otherwise the row is removed, the destroyed record is returned, and the find key and the namespace are expired. |
| CrudService.WritesClearNamespace | app/services/crud_service.rb:43-121 | After any successful create, update or destroy, no cache key under `crud/<name>/` survives. |
| CrudService.DestroyIgnoresCache | app/services/crud_service.rb:105-107 | `destroy` decides from the table alone: the cache's contents change neither its answer nor the table. |
| CrudService.FindAfterUpdateIsFresh | app/services/crud_service.rb:12-62 | After a successful update under the default key, `find` of that id returns the merged attributes. |
| CrudService.CreateThenFind | app/services/crud_service.rb:12-46 | After a successful create, a default-keyed `find` of the new id returns the created record, cache or no cache. |
| CrudService.ListAfterCreateIsFresh | app/services/crud_service.rb:25-49 | After a successful create, a default-keyed `list` returns the page of the table as it now is. |
| CrudService.PageKeepsAscending | app/services/crud_service.rb:100 | A page cut from id-ordered rows is id-ordered. |
| Comparison.InteractorKeysOutsideNamespace | app/interactors/generic_crud_interactor.rb:98-106 | For a model name without '/' that is not "crud", no default fetch key of the interactor lies under the service's `crud/<name>/` namespace. |
| Comparison.ServiceExpiryKeepsInteractorPages | app/services/crud_service.rb:57-121 | The service's namespace expiry, and its write expiry under the default find key, keep unchanged every page the interactor cached under a default key (model name as above). |
| Comparison.InteractorPageNeedNotBeIdOrdered | app/interactors/generic_crud_interactor.rb:75-81 | The interactor imposes no order. When the database returns rows in descending id order, its first page is not in id order, while the service's first page over the same table and database is. |
| Comparison.ServiceListsInKeyOrder | app/services/crud_service.rb:84-100 | Whatever order the database would give an unordered query, the service's first page of a two-row table lists the rows in id order. |
| Comparison.InteractorPagesMayRepeatRows | app/interactors/generic_crud_interactor.rb:75-81 | When the database orders the same rows differently for the query of page 2, the interactor's one-row pages 1 and 2 both show the same row, and the other row is on neither, although Pagy counts two. The service's pages 1 and 2 over the same table and database are the two rows in id order. |
| ApplicationHelper.ButtonColorClasses | app/helpers/application_helper.rb:20-47 | The string starts with the color's base classes followed by the rounding class. For an unrecognised size it is exactly that. |
| ApplicationHelper.ButtonClasses | app/helpers/application_helper.rb:20-47 | The classes are the color's three base classes, then exactly one of `rounded-full` (rounded) or `rounded-md` (not rounded), then the size's classes (`px-4 py-2`, `px-3 py-1.5 text-sm`, `px-5 py-3 text-lg`). An unknown size adds nothing. |
| ApplicationHelper.UnknownButtonColorIsGray | app/helpers/application_helper.rb:30-37 | An unrecognised color gives exactly the `:gray` classes. |
| ApplicationHelper.FormInputClasses | app/helpers/application_helper.rb:49-57 | The string starts with the fixed base string, a space and the rounding class. For a size other than `:sm` and `:lg` it is exactly that. |
| ApplicationHelper.FormInputClassTokens | app/helpers/application_helper.rb:49-57 | The classes are the eight base classes, one rounding class, then `text-sm` for `:sm`, `text-lg` for `:lg`, else nothing. An unrounded input has `rounded-md` twice. A rounded one has `rounded-md` once and `rounded-full` once. |
| ApplicationHelper.PTagClasses | app/helpers/application_helper.rb:115-135 | The string starts with the size class, a space and the weight class. |
| ApplicationHelper.PTagClassTokens | app/helpers/application_helper.rb:115-135 | The first class is the size's (`text-sm`, `text-lg`, else `text-md`). Exactly one weight class follows (bold for black, semibold for blue, normal otherwise). There is at most one text-color class, and there is one exactly for red, green, blue, yellow, black and gray. |

## Left out

- Pagy's errors are not modelled. `Pagy.new` raises for a page or items below 1, and raises `Pagy::OverflowError` for a page past the last one. In the interactor (app/interactors/generic_crud_interactor.rb:81) the `rescue` turns that into a failure and nothing is cached. In the service (app/services/crud_service.rb:98) it propagates to the caller. The model instead returns an empty page past the end, and in `fetch_records` and a cached `list` it stores that page. The window clamps for page or items below 1, and the window properties are stated for page and items of at least 1. Pagy metadata beyond count, page and items is also left out.
- `update` with absent params is not modelled. `record.update(nil)` raises `ArgumentError` (app/interactors/generic_crud_interactor.rb:56), and the `rescue` turns that into a failure. The model reads absent params as the empty hash for every action, so such an update succeeds and changes nothing.
- Pagy's `outset` variable is not modelled. The offset is `(page-1)*items`, as the interactor writes it.
- The `defined?(Pagy)` fallback in `fetch_records` is not modelled, because Pagy is always loaded in this application.
- The interactor's `rescue => e` wrapper is not modelled. Exceptions raised by the collaborators are outside the model, and `fail!` ends the call with its error.
- `:turbo_stream` rendering is not modelled. It is the opaque `render`/`renderAll` collaborator, and no property is stated about it.
- `Rails.cache` backends are reduced to a map with expiry times. `delete_matched("crud/<name>/*")` is read as deleting by the prefix `crud/<name>/`, since glob or regex treatment depends on the backend.
- `GenericCrudInteractor.FetchRecords`, `GenericCrudInteractor.FetchHitIgnoresStore`, `GenericCrudInteractor.RepeatedFetchIsStable`, `GenericCrudInteractor.CachedFetchSurvivesWrites`: the cached page is a snapshot of its rows in every format. The source caches rows only under `:json` (hashes) and `:turbo_stream` (rendered HTML). Under every other format, the nil format included, `fetch_records` caches the unloaded relation `scope.offset(...).limit(...)` (app/interactors/generic_crud_interactor.rb:81, 86, 126). With a Marshal-based cache store, a hit gives back that relation, which queries the current table again, next to a Pagy count that may be stale. So for those formats the three lemmas hold only for the snapshot model: a hit does not re-read the table here, although in the source it can.
- `CrudService.List`: a cached `list` result is likewise modelled as a snapshot of its rows. The source caches the relation, and whether it is loaded depends on the serializer.
- `Find` caches a `nil` result as the source does with Rails' default `skip_nil: false`. No other cache options are modelled.
- MD5 of the list SQL is not modelled. It is the opaque `fingerprint` collaborator, so the dead `reorder(id: :asc)` branch of `default_list_key` does not appear (the query is always ordered by then).
- `use_cache` defaulting to the production environment is not modelled. It is a plain boolean.
- `ActiveRecord::RecordInvalid`'s message is modelled as "Validation failed: " followed by the messages joined by ", ". Its translation is not modelled.
- The messages of `RecordNotSaved` and `RecordNotDestroyed` are not modelled.
- `model.name.underscore` and `Hash#to_param` are not modelled. They are opaque collaborator fields.
- Assigning an explicit primary key through the attributes is not modelled. Ids always come from the auto-increment counter.
- Ransack sorting parameters are not modelled. Ransack is a row predicate only.
- `GenericCrudInteractor.Scope`, `Records.Load`: the database's order for an unordered query, and an ORDER BY clause other than `id asc`, are collaborator functions constrained only by `Records.WellFormed`, which says they permute their input. The model proves which rows they return, but not in what order. Only `id asc` is described exactly.
- `Records.ModelClass.unordered` and `arrange`: the order is a function of the rows, the ORDER BY clause and the query's offset and limit. So two identical queries over the same table get the same order. A database that returns a different order each time the same query runs is not modelled.
- `ApplicationHelper.ButtonColorClasses`, `ApplicationHelper.FormInputClasses`, `ApplicationHelper.PTagClasses` are stated on their class lists. Every literal in the helpers is single-space separated and every appended suffix begins with one space, so the string is the list joined by spaces. The literal string spellings are not proved character by character.
- `alert_msg`, the other fixed class strings, the SVG icons, controllers, `GenericCrudLoader`, authentication, initializers, view components and JavaScript are not modelled. They are framework glue, I/O or constant tables.

=== FILE: application_helper.dfy ===
/**
 * The Tailwind class-string builders of `ApplicationHelper`: a base string
 * picked by color or size, followed by conditionally appended suffixes.
 *
 * Every literal the helpers use is a run of class names separated by single
 * spaces, and every appended suffix starts with a space. So each builder is
 * modelled as a list of class names, built step by step as the helper builds
 * its string, and the string is that list joined by spaces (`Text.Unwords`;
 * `Text.UnwordsAppend` shows that appending words to the list is appending
 * " " and the words to the string).
 *
 * Ruby symbols are modelled by their names (`:blue` is "blue").
 */
module ApplicationHelper {
  import opened Text

  // ---------------------------------------------------------------- buttons

  /** The color part of `button_color_classes`; unknown colors fall back to gray. */
  function ButtonBase(color: string): seq<string> {
    if color == "blue" then ["bg-blue-500", "hover:bg-blue-600", "text-white"]
    else if color == "green" then ["bg-green-500", "hover:bg-green-600", "text-white"]
    else if color == "red" then ["bg-red-500", "hover:bg-red-600", "text-white"]
    else if color == "yellow" then ["bg-yellow-500", "hover:bg-yellow-600", "text-white"]
    else if color == "gray" then ["bg-gray-500", "hover:bg-gray-600", "text-white"]
    else if color == "black" then ["bg-black", "hover:bg-gray-800", "text-white"]
    else if color == "navy" then ["bg-blue-900", "hover:bg-blue-800", "text-white"]
    else ["bg-gray-500", "hover:bg-gray-600", "text-white"]
  }

  /** The class list of `button_color_classes(color, size:, rounded:)`. */
  function ButtonClassList(color: string, size: string, rounded: bool): seq<string> {
    ButtonBase(color)
      + (if rounded then ["rounded-full"] else [])
      + (if !rounded then ["rounded-md"] else [])
      + (if size == "md" then ["px-4", "py-2"] else [])
      + (if size == "sm" then ["px-3", "py-1.5", "text-sm"] else [])
      + (if size == "lg" then ["px-5", "py-3", "text-lg"] else [])
  }

  /** `button_color_classes` (Ruby defaults `size: :md, rounded: false`). */
  function ButtonColorClasses(color: string, size: string, rounded: bool): (r: string)
    ensures Unwords(ButtonBase(color)) + " " + (if rounded then "rounded-full" else "rounded-md") <= r
    ensures size !in {"md", "sm", "lg"} ==>
      r == Unwords(ButtonBase(color)) + " " + (if rounded then "rounded-full" else "rounded-md")
  {
    var head := ButtonBase(color) + [if rounded then "rounded-full" else "rounded-md"];
    ButtonShape(color, size, rounded);
    UnwordsAppend(ButtonBase(color), head[3..]);
    assert head == ButtonBase(color) + head[3..];
    UnwordsPrefix(head, ButtonSizeClasses(size));
    assert size !in {"md", "sm", "lg"} ==> head + ButtonSizeClasses(size) == head;
    Unwords(ButtonClassList(color, size, rounded))
  }

  /** The padding and text-size classes each button size adds; none for an unknown size. */
  function ButtonSizeClasses(size: string): seq<string> {
    if size == "md" then ["px-4", "py-2"]
    else if size == "sm" then ["px-3", "py-1.5", "text-sm"]
    else if size == "lg" then ["px-5", "py-3", "text-lg"]
    else []
  }

  /** Concatenation regroups freely. */
  lemma Associative(x: seq<string>, y: seq<string>, z: seq<string>)
    ensures x + y + z == x + (y + z)
  {
  }

  /** Every color's base is three classes, none of them a rounding class. */
  lemma ButtonBaseShape(color: string)
    ensures |ButtonBase(color)| == 3
    ensures "rounded-full" !in ButtonBase(color) && "rounded-md" !in ButtonBase(color)
  {
    var b := ButtonBase(color);
    forall i | 0 <= i < |b| ensures b[i] != "rounded-full" && b[i] != "rounded-md" {
      assert b[i][0] != 'r';
    }
  }

  /** The three size appends together give the size's classes, none of them a rounding class. */
  lemma ButtonSizeShape(size: string)
    ensures (if size == "md" then ["px-4", "py-2"] else [])
      + (if size == "sm" then ["px-3", "py-1.5", "text-sm"] else [])
      + (if size == "lg" then ["px-5", "py-3", "text-lg"] else [])
      == ButtonSizeClasses(size)
    ensures "rounded-full" !in ButtonSizeClasses(size) && "rounded-md" !in ButtonSizeClasses(size)
  {
    var z := ButtonSizeClasses(size);
    forall i | 0 <= i < |z| ensures z[i] != "rounded-full" && z[i] != "rounded-md" {
      assert z[i][0] != 'r';
    }
  }

  /** The button list is the base, one rounding class, then the size's classes. */
  lemma ButtonShape(color: string, size: string, rounded: bool)
    ensures ButtonClassList(color, size, rounded)
      == ButtonBase(color) + [if rounded then "rounded-full" else "rounded-md"] + ButtonSizeClasses(size)
    ensures |ButtonBase(color)| == 3
    ensures "rounded-full" !in ButtonBase(color) && "rounded-md" !in ButtonBase(color)
    ensures "rounded-full" !in ButtonSizeClasses(size) && "rounded-md" !in ButtonSizeClasses(size)
  {
    ButtonBaseShape(color);
    ButtonSizeShape(size);
    var base := ButtonBase(color);
    var full: seq<string> := if rounded then ["rounded-full"] else [];
    var md: seq<string> := if !rounded then ["rounded-md"] else [];
    var a: seq<string> := if size == "md" then ["px-4", "py-2"] else [];
    var b: seq<string> := if size == "sm" then ["px-3", "py-1.5", "text-sm"] else [];
    var c: seq<string> := if size == "lg" then ["px-5", "py-3", "text-lg"] else [];
    assert full + md == [if rounded then "rounded-full" else "rounded-md"];
    var head := base + full + md;
    Associative(base, full, md);
    assert ButtonClassList(color, size, rounded) == head + a + b + c;
    Associative(head, a, b);
    Associative(head, a + b, c);
  }

  /**
   * The button classes are the color's three base classes, then exactly one
   * rounding class (`rounded-full` when rounded, `rounded-md` otherwise), then
   * the size's classes, nothing for an unrecognised size.
   */
  lemma ButtonClasses(color: string, size: string, rounded: bool)
    ensures var t := ButtonClassList(color, size, rounded);
      && |t| >= 4
      && t[..3] == ButtonBase(color)
      && t[3] == (if rounded then "rounded-full" else "rounded-md")
      && t[4..] == ButtonSizeClasses(size)
      && Count(t, {"rounded-full"}) + Count(t, {"rounded-md"}) == 1
      && (size !in {"md", "sm", "lg"} ==> |t| == 4)
  {
    var base := ButtonBase(color);
    var round := if rounded then "rounded-full" else "rounded-md";
    var sz := ButtonSizeClasses(size);
    ButtonShape(color, size, rounded);
    CountAppend(base + [round], sz, {"rounded-full"});
    CountAppend(base, [round], {"rounded-full"});
    CountAppend(base + [round], sz, {"rounded-md"});
    CountAppend(base, [round], {"rounded-md"});
  }

  /** An unrecognised color gets exactly the classes of `:gray`. */
  lemma UnknownButtonColorIsGray(color: string, size: string, rounded: bool)
    requires color !in {"blue", "green", "red", "yellow", "gray", "black", "navy"}
    ensures ButtonColorClasses(color, size, rounded) == ButtonColorClasses("gray", size, rounded)
    ensures ButtonClassList(color, size, rounded)[..3] == ["bg-gray-500", "hover:bg-gray-600", "text-white"]
  {
  }

  // ------------------------------------------------------------ form inputs

  const FormInputBase: seq<string> :=
    ["border", "border-gray-300", "rounded-md", "p-2", "w-full", "focus:outline-none", "focus:ring-2", "focus:ring-blue-500"]

  /** The class list of `form_input_classes(size:, rounded:)`. */
  function FormInputClassList(size: string, rounded: bool): seq<string> {
    FormInputBase
      + (if rounded then ["rounded-full"] else [])
      + (if !rounded then ["rounded-md"] else [])
      + (if size == "sm" then ["text-sm"] else [])
      + (if size == "lg" then ["text-lg"] else [])
  }

  /** `form_input_classes` (Ruby defaults `size: :sm, rounded: false`). */
  function FormInputClasses(size: string, rounded: bool): (r: string)
    ensures Unwords(FormInputBase) + " " + (if rounded then "rounded-full" else "rounded-md") <= r
    ensures size !in {"sm", "lg"} ==>
      r == Unwords(FormInputBase) + " " + (if rounded then "rounded-full" else "rounded-md")
  {
    FormInputJoined(size, rounded);
    Unwords(FormInputClassList(size, rounded))
  }

  /** The joined class list starts with the base and the rounding class, and is only that without a size. */
  lemma FormInputJoined(size: string, rounded: bool)
    ensures var head := Unwords(FormInputBase) + " " + (if rounded then "rounded-full" else "rounded-md");
      && head <= Unwords(FormInputClassList(size, rounded))
      && (size !in {"sm", "lg"} ==> Unwords(FormInputClassList(size, rounded)) == head)
  {
    var round := [if rounded then "rounded-full" else "rounded-md"];
    FormInputShape(size, rounded);
    UnwordsAppend(FormInputBase, round);
    Associative(FormInputBase, round, FormInputSizeClasses(size));
    UnwordsPrefix(FormInputBase + round, FormInputSizeClasses(size));
    assert size !in {"sm", "lg"} ==> round + FormInputSizeClasses(size) == round;
  }

  /** The size class a form input adds: `text-sm`, `text-lg` or none. */
  function FormInputSizeClasses(size: string): seq<string> {
    if size == "sm" then ["text-sm"] else if size == "lg" then ["text-lg"] else []
  }

  /** The form-input list is the base, one rounding class, then the size class. */
  lemma FormInputShape(size: string, rounded: bool)
    ensures FormInputClassList(size, rounded)
      == FormInputBase + ([if rounded then "rounded-full" else "rounded-md"] + FormInputSizeClasses(size))
    ensures "rounded-full" !in FormInputSizeClasses(size) && "rounded-md" !in FormInputSizeClasses(size)
  {
  }

  /** The base holds `rounded-md` once (third) and no `rounded-full`. */
  lemma FormInputBaseRounding()
    ensures Count(FormInputBase, {"rounded-md"}) == 1
    ensures Count(FormInputBase, {"rounded-full"}) == 0
  {
    var head := FormInputBase[..3];
    var tail := FormInputBase[3..];
    assert FormInputBase == head + tail;
    BaseTailHasNoRounding(tail);
    CountAppend(head, tail, {"rounded-md"});
    CountAppend(head, tail, {"rounded-full"});
  }

  /** Past its third token the base names no rounding class. */
  lemma BaseTailHasNoRounding(tail: seq<string>)
    requires tail == FormInputBase[3..]
    ensures Count(tail, {"rounded-md"}) == 0 && Count(tail, {"rounded-full"}) == 0
  {
    assert tail == ["p-2", "w-full", "focus:outline-none", "focus:ring-2", "focus:ring-blue-500"];
    forall i | 0 <= i < |tail|
      ensures tail[i] != "rounded-md" && tail[i] != "rounded-full"
    {
      assert tail[i][0] != 'r';
    }
  }

  /**
   * The form-input classes start with the fixed base string, then one rounding
   * class, then `text-sm` for `:sm`, `text-lg` for `:lg`, nothing otherwise.
   * The base already holds `rounded-md`, so an unrounded input carries it twice
   * and a rounded one carries both `rounded-md` and `rounded-full`.
   */
  lemma FormInputClassTokens(size: string, rounded: bool)
    ensures var t := FormInputClassList(size, rounded);
      && |t| >= 9
      && t[..8] == FormInputBase
      && t[8] == (if rounded then "rounded-full" else "rounded-md")
      && t[9..] == FormInputSizeClasses(size)
      && Count(t, {"rounded-md"}) == (if rounded then 1 else 2)
      && Count(t, {"rounded-full"}) == (if rounded then 1 else 0)
  {
    var rest := [if rounded then "rounded-full" else "rounded-md"] + FormInputSizeClasses(size);
    FormInputShape(size, rounded);
    FormInputBaseRounding();
    assert |FormInputBase| == 8;
    FormInputTailRounding(size, rounded);
    CountAppend(FormInputBase, rest, {"rounded-md"});
    CountAppend(FormInputBase, rest, {"rounded-full"});
  }

  /** After the base tokens, exactly the chosen rounding token appears, once. */
  lemma FormInputTailRounding(size: string, rounded: bool)
    ensures var rest := [if rounded then "rounded-full" else "rounded-md"] + FormInputSizeClasses(size);
      && Count(rest, {"rounded-md"}) == (if rounded then 0 else 1)
      && Count(rest, {"rounded-full"}) == (if rounded then 1 else 0)
  {
    var rest := [if rounded then "rounded-full" else "rounded-md"] + FormInputSizeClasses(size);
    assert rest[1..] == FormInputSizeClasses(size);
  }

  // ------------------------------------------------------------- paragraphs

  /** The class list of `p_tag_classes(color, size:)`. */
  function PTagClassList(color: string, size: string): seq<string> {
    [if size == "sm" then "text-sm" else if size == "lg" then "text-lg" else "text-md"]
      + (if color == "black" then ["font-bold"] else [])
      + (if color == "blue" then ["font-semibold"] else [])
      + (if color !in {"black", "blue"} then ["font-normal"] else [])
      + (if color == "red" then ["text-red-700"] else [])
      + (if color == "green" then ["text-green-700"] else [])
      + (if color == "blue" then ["text-blue-700"] else [])
      + (if color == "yellow" then ["text-yellow-700"] else [])
      + (if color == "black" then ["text-black"] else [])
      + (if color == "gray" then ["text-gray-700"] else [])
  }

  /** `p_tag_classes` (Ruby defaults `color = :black, size: :md`). */
  function PTagClasses(color: string, size: string): (r: string)
    ensures (if size == "sm" then "text-sm" else if size == "lg" then "text-lg" else "text-md") + " "
      + (if color == "black" then "font-bold" else if color == "blue" then "font-semibold" else "font-normal") <= r
  {
    var sizeClass := if size == "sm" then "text-sm" else if size == "lg" then "text-lg" else "text-md";
    var weight := if color == "black" then "font-bold" else if color == "blue" then "font-semibold" else "font-normal";
    PTagShape(color, size);
    assert Unwords([sizeClass, weight]) == sizeClass + " " + weight by {
      assert [sizeClass, weight][1..] == [weight];
    }
    UnwordsPrefix([sizeClass, weight], PTagTint(color));
    Unwords(PTagClassList(color, size))
  }

  const WeightClasses: set<string> := {"font-bold", "font-semibold", "font-normal"}

  const TextColorClasses: set<string> :=
    {"text-red-700", "text-green-700", "text-blue-700", "text-yellow-700", "text-black", "text-gray-700"}

  /** A size token followed by a weight token holds one weight and no text color. */
  lemma PTagHeadCounts(sizeClass: string, weight: string)
    requires sizeClass in {"text-sm", "text-lg", "text-md"}
    requires weight in {"font-bold", "font-semibold", "font-normal"}
    ensures Count([sizeClass, weight], WeightClasses) == 1
    ensures Count([sizeClass, weight], TextColorClasses) == 0
  {
    assert [sizeClass, weight][1..] == [weight];
  }

  /**
   * A paragraph's classes are its size class first (`text-sm`, `text-lg`, else
   * `text-md`), then exactly one weight class (bold for black, semibold for blue,
   * normal otherwise), then at most one text-color class: the color's own
   * for red, green, blue, yellow, black and gray, none for any other color.
   */
  lemma PTagClassTokens(color: string, size: string)
    ensures var t := PTagClassList(color, size);
      && |t| >= 2
      && t[0] == (if size == "sm" then "text-sm" else if size == "lg" then "text-lg" else "text-md")
      && t[1] == (if color == "black" then "font-bold" else if color == "blue" then "font-semibold" else "font-normal")
      && Count(t, WeightClasses) == 1
      && Count(t, TextColorClasses) <= 1
      && (color in {"red", "green", "blue", "yellow", "black", "gray"} <==> Count(t, TextColorClasses) == 1)
      && (color == "blue" ==> |t| == 3 && t[2] == "text-blue-700")
  {
    var sizeClass := if size == "sm" then "text-sm" else if size == "lg" then "text-lg" else "text-md";
    var weight := if color == "black" then "font-bold" else if color == "blue" then "font-semibold" else "font-normal";
    var tint := PTagTint(color);
    PTagShape(color, size);
    PTagHeadCounts(sizeClass, weight);
    CountAppend([sizeClass, weight], tint, WeightClasses);
    CountAppend([sizeClass, weight], tint, TextColorClasses);
  }

  /** The text-color class a paragraph color adds, if any. */
  function PTagTint(color: string): seq<string> {
    if color == "red" then ["text-red-700"]
    else if color == "green" then ["text-green-700"]
    else if color == "blue" then ["text-blue-700"]
    else if color == "yellow" then ["text-yellow-700"]
    else if color == "black" then ["text-black"]
    else if color == "gray" then ["text-gray-700"]
    else []
  }

  /** The paragraph list is the size class, the weight class, then the tint. */
  lemma PTagShape(color: string, size: string)
    ensures PTagClassList(color, size)
      == [if size == "sm" then "text-sm" else if size == "lg" then "text-lg" else "text-md",
          if color == "black" then "font-bold" else if color == "blue" then "font-semibold" else "font-normal"]
         + PTagTint(color)
    ensures Count(PTagTint(color), WeightClasses) == 0
    ensures Count(PTagTint(color), TextColorClasses) == (if color in {"red", "green", "blue", "yellow", "black", "gray"} then 1 else 0)
    ensures Count([if size == "sm" then "text-sm" else if size == "lg" then "text-lg" else "text-md",
          if color == "black" then "font-bold" else if color == "blue" then "font-semibold" else "font-normal"], TextColorClasses) == 0
  {
  }
}

=== FILE: cache.dfy ===
/**
 * `Rails.cache` as the CRUD layer uses it: a string-keyed map of entries that
 * expire at a given time, read and filled through `fetch`, emptied through
 * `delete` and `delete_matched`. Both CRUD implementations share it, so one
 * value type covers what either of them stores.
 */
module RailsCache {
  import opened Maybe
  import opened Records
  import opened Paging

  /** What gets cached: a `find_by` result, or a (pagy, records) pair. */
  datatype Value = Found(record: Option<Record>) | Page(pagy: PageInfo, records: ShownList)

  datatype Entry = Entry(value: Value, expiresAt: int)

  type Cache = map<string, Entry>

  /** The table and the cache together: everything a CRUD call may change. */
  datatype State = State(db: Db, cache: Cache)

  /** An entry is served while the clock is before its expiry time. */
  predicate Live(c: Cache, key: string, now: int) {
    key in c && now < c[key].expiresAt
  }

  /**
   * `Rails.cache.fetch(key, expires_in: ttl) { computed }`: a live entry is
   * returned as is; otherwise `computed` is stored until `now + ttl` and returned.
   */
  function Fetch(c: Cache, key: string, now: int, ttl: int, computed: Value): (res: (Value, Cache))
    ensures Live(c, key, now) ==> res == (c[key].value, c)
    ensures !Live(c, key, now) ==> res.0 == computed && res.1 == c[key := Entry(computed, now + ttl)]
  {
    if Live(c, key, now) then (c[key].value, c) else (computed, c[key := Entry(computed, now + ttl)])
  }

  /**
   * A miss stores its value for `ttl`; from then on, while the entry lives,
   * `fetch` under the same key returns what the first call returned, whatever
   * the block would now compute.
   */
  lemma FetchThenHit(c: Cache, key: string, now: int, ttl: int, computed: Value, later: int, other: Value)
    ensures !Live(c, key, now) && now <= later < now + ttl ==> Live(Fetch(c, key, now, ttl, computed).1, key, later)
    ensures Live(Fetch(c, key, now, ttl, computed).1, key, later) ==>
      Fetch(Fetch(c, key, now, ttl, computed).1, key, later, ttl, other)
        == (Fetch(c, key, now, ttl, computed).0, Fetch(c, key, now, ttl, computed).1)
  {
  }

  /** `Rails.cache.delete(key)`. */
  function Delete(c: Cache, key: string): (c': Cache)
    ensures key !in c'
    ensures forall k | k in c && k != key :: k in c' && c'[k] == c[k]
    ensures c'.Keys <= c.Keys
  {
    c - {key}
  }

  /** `Rails.cache.delete_matched("<prefix>*")`, read as: drop every key that starts with `prefix`. */
  function DeleteMatched(c: Cache, prefix: string): (c': Cache)
    ensures forall k | k in c' :: !(prefix <= k)
    ensures forall k | k in c && !(prefix <= k) :: k in c' && c'[k] == c[k]
    ensures c'.Keys <= c.Keys
  {
    map k | k in c && !(prefix <= k) :: c[k]
  }
}

=== FILE: comparison.dfy ===
/**
 * Where the two CRUD implementations part ways. The service invalidates its
 * own `crud/<name>/` namespace on every write and the interactor never
 * invalidates anything, so neither one's writes reach the other's pages. The
 * service forces `id asc` on an unordered list; the interactor pages through
 * whatever order the database returns.
 */
module Comparison {
  import opened Maybe
  import opened Records
  import opened Paging
  import opened RailsCache
  import I = GenericCrudInteractor
  import S = CrudService

  /**
   * For a model whose name holds no '/' and is not "crud", no default fetch key
   * of the interactor lies under the service's namespace.
   */
  lemma InteractorKeysOutsideNamespace(s: S.Service, m: ModelClass, req: I.Request)
    requires '/' !in m.name && m.name != "crud"
    ensures !(S.Namespace(s) <= I.DefaultCacheKey(m, req))
  {
    var k := I.DefaultCacheKey(m, req);
    var p := S.Namespace(s);
    var n := |m.name|;
    assert k[..n] == m.name;
    assert p[..5] == "crud/";
    if n >= 5 {
      assert k[4] == m.name[4] != '/' == p[4];
    } else if n == 4 {
      assert k[..4] == m.name != "crud" == p[..4];
    } else {
      assert k[n] == '/' != p[n];
    }
  }

  /**
   * A successful service update or destroy (with the default find key) keeps
   * every entry the interactor stored under a default fetch key, unchanged:
   * the service's invalidation does not reach the interactor's pages.
   */
  lemma ServiceExpiryKeepsInteractorPages(s: S.Service, m: ModelClass, req: I.Request, id: Option<Id>, c: Cache)
    requires '/' !in m.name && m.name != "crud"
    requires I.DefaultCacheKey(m, req) in c
    ensures var k := I.DefaultCacheKey(m, req);
      && k in S.ExpireAfterWrite(s, id, None, c) && S.ExpireAfterWrite(s, id, None, c)[k] == c[k]
      && k in S.ExpireCacheForModel(s, c) && S.ExpireCacheForModel(s, c)[k] == c[k]
  {
    var k := I.DefaultCacheKey(m, req);
    InteractorKeysOutsideNamespace(s, m, req);
    assert k != S.DefaultFindKey(s, id);
  }

  /**
   * A model class whose database returns a two-row result without ORDER BY
   * last id first in the queries `swaps` picks, and in key order otherwise.
   */
  function Swapping(swaps: Option<Slice> -> bool): ModelClass {
    ModelClass("Item", "item",
      (a: Attrs) => [],
      (id: Option<Id>, a: Attrs) => None,
      (r: Record) => None,
      (p: FilterParams, r: Record) => true,
      (p: FilterParams) => "",
      (c: Conditions, r: Record) => true,
      (rs: seq<Record>, cut: Option<Slice>) => if |rs| == 2 && swaps(cut) then [rs[1], rs[0]] else rs,
      (o: string, rs: seq<Record>, cut: Option<Slice>) => rs,
      (r: Record) => "",
      (rs: seq<Record>) => "")
  }

  /** Swapping two rows is a permutation, so every swapping database is a lawful one. */
  lemma SwappingIsWellFormed(swaps: Option<Slice> -> bool)
    ensures WellFormed(Swapping(swaps))
  {
    forall xs: seq<Record>, cut: Option<Slice> ensures multiset(Swapping(swaps).unordered(xs, cut)) == multiset(xs) {
      if |xs| == 2 {
        assert xs == [xs[0], xs[1]];
      }
    }
  }

  /** Swap in every query. */
  predicate Always(cut: Option<Slice>) {
    true
  }

  /** Swap only in the query for the second one-row page. */
  predicate SecondOfOne(cut: Option<Slice>) {
    cut == Some(Slice(1, 1))
  }

  /** A database that returns every two-row result last id first. */
  function Reversing(): ModelClass {
    Swapping(Always)
  }

  /** A database that swaps two rows only in the query for the second one-row page. */
  function Shifting(): ModelClass {
    Swapping(SecondOfOne)
  }

  /** A service over a model, caching off, with Pagy's default of 20 items. */
  function Over(m: ModelClass): S.Service {
    S.Service(m, false, 20, (r: Relation, p: Option<int>, n: Option<int>) => "")
  }

  /** A table with rows 0 and 1. */
  const TwoRows: Db := Db(map[0 := map[], 1 := map[]], 2)

  const Row0: Record := Record(0, map[])
  const Row1: Record := Record(1, map[])

  /** The first page of everything, with no filter and no format. */
  const FirstPage: I.Request := I.Request(I.Fetch, map[], None, None, None, None, None, None, None)

  /** Page `page` of everything, one row per page. */
  function OneRowPage(page: int): I.Request {
    I.Request(I.Fetch, map[], None, None, Some(page), Some(1), None, None, None)
  }

  /** The table in key order. */
  lemma TwoRowsInOrder()
    ensures Valid(TwoRows)
    ensures AllRows(TwoRows) == [Row0, Row1]
  {
    assert RowsFrom(TwoRows, 2) == [];
    assert RowsFrom(TwoRows, 1) == [Row1];
  }

  /** The windows of a two-element sequence: one per page of size 1, both on a page of size 2 or more. */
  lemma WindowsOfTwo<T>(xs: seq<T>, items: int)
    requires |xs| == 2 && items >= 2
    ensures PageOf(xs, 1, 1) == [xs[0]]
    ensures PageOf(xs, 2, 1) == [xs[1]]
    ensures PageOf(xs, 1, items) == xs
    ensures Window(xs, Offset(1, items), items) == xs
    ensures Window(xs, Offset(1, 1), 2 * 1) == xs
  {
    assert Offset(1, 1) == 0 && Offset(2, 1) == 1 && Offset(1, items) == 0;
    assert Window(xs, 0, 1) == xs[0..1];
    assert Window(xs, 1, 1) == xs[1..2];
    assert Window(xs, 0, items) == xs[0..2];
    assert Window(xs, 0, 2) == xs[0..2];
  }

  /** Under a swapping database, `fetch`'s scope is the table, swapped exactly when the page's query swaps. */
  lemma SwappedScope(swaps: Option<Slice> -> bool, req: I.Request)
    requires req.ransackParams.None?
    ensures Valid(TwoRows) && WellFormed(Swapping(swaps))
    ensures I.Scope(Swapping(swaps), req, TwoRows)
      == if swaps(Some(PageSlice(I.PagyPage(req), I.PagyItems(req)))) then [Row1, Row0] else [Row0, Row1]
  {
    SwappingIsWellFormed(swaps);
    TwoRowsInOrder();
    assert I.Filtered(Swapping(swaps), req, TwoRows) == AllRows(TwoRows);
  }

  /**
   * The interactor imposes no order: under a database that returns rows in
   * descending id order, its first page is not in id order, while the
   * service's list of the same table is.
   */
  lemma InteractorPageNeedNotBeIdOrdered()
    ensures Valid(TwoRows) && WellFormed(Reversing())
    ensures I.PageRecords(Reversing(), FirstPage, TwoRows) == [Row1, Row0]
    ensures !Ascending(I.PageRecords(Reversing(), FirstPage, TwoRows))
    ensures S.Paginate(Over(Reversing()), TwoRows, S.ListQuery(None, map[]), None, None).records.records
      == [Row0, Row1]
  {
    SwappedScope(Always, FirstPage);
    WindowsOfTwo(I.Scope(Reversing(), FirstPage, TwoRows), 20);
    ServiceListsInKeyOrder(Always, None, None);
  }

  /** The service lists the two rows in key order, whatever the swapping database does without ORDER BY. */
  lemma ServiceListsInKeyOrder(swaps: Option<Slice> -> bool, page: Option<int>, items: Option<int>)
    requires page.GetOr(1) == 1 && items.GetOr(20) >= 2
    ensures Valid(TwoRows) && WellFormed(Swapping(swaps))
    ensures S.Paginate(Over(Swapping(swaps)), TwoRows, S.ListQuery(None, map[]), page, items).records.records
      == [Row0, Row1]
  {
    var m := Swapping(swaps);
    SwappingIsWellFormed(swaps);
    MatchesEverything(swaps);
    var q := S.ListQuery(None, map[]);
    S.ListQueryIsIdOrdered(None, map[]);
    S.IdOrderedPage(Over(m), TwoRows, q, page, items);
    WindowsOfTwo(AllRows(TwoRows), items.GetOr(20));
  }

  /** The service's unfiltered list query matches the whole table. */
  lemma MatchesEverything(swaps: Option<Slice> -> bool)
    ensures Valid(TwoRows)
    ensures Matching(Swapping(swaps), TwoRows, S.ListQuery(None, map[])) == AllRows(TwoRows) == [Row0, Row1]
  {
    TwoRowsInOrder();
    var q := S.ListQuery(None, map[]);
    assert q.conditions == [];
    WhereKeepsAll(AllRows(TwoRows), r => SatisfiesAll(Swapping(swaps), q.conditions, r));
  }

  /** The interactor's two one-row pages under the shifting database both hold row 0. */
  lemma ShiftingPages()
    ensures Valid(TwoRows) && WellFormed(Shifting())
    ensures I.PageRecords(Shifting(), OneRowPage(1), TwoRows) == [Row0]
    ensures I.PageRecords(Shifting(), OneRowPage(2), TwoRows) == [Row0]
  {
    assert PageSlice(I.PagyPage(OneRowPage(1)), I.PagyItems(OneRowPage(1))) == Slice(0, 1);
    assert PageSlice(I.PagyPage(OneRowPage(2)), I.PagyItems(OneRowPage(2))) == Slice(1, 1);
    SwappedScope(SecondOfOne, OneRowPage(1));
    SwappedScope(SecondOfOne, OneRowPage(2));
    WindowsOfTwo(I.Scope(Shifting(), OneRowPage(1), TwoRows), 2);
    WindowsOfTwo(I.Scope(Shifting(), OneRowPage(2), TwoRows), 2);
  }

  /** Pagy counts both rows of the table. */
  lemma ShiftingCount()
    ensures Valid(TwoRows) && WellFormed(Shifting())
    ensures I.ComputePage(Shifting(), OneRowPage(1), TwoRows).pagy.count == 2
  {
    SwappingIsWellFormed(SecondOfOne);
    TwoRowsInOrder();
    assert I.Filtered(Shifting(), OneRowPage(1), TwoRows) == AllRows(TwoRows);
    I.FilteredCount(Shifting(), OneRowPage(1), TwoRows);
  }

  /**
   * Pages of an unordered query need not tile the rows. A database may order
   * each `offset/limit` query differently, and then the interactor shows row 0
   * on both one-row pages of a two-row table and row 1 on neither, though
   * Pagy counts two rows. The service's `id asc` pages show each row once.
   */
  lemma InteractorPagesMayRepeatRows()
    ensures Valid(TwoRows) && WellFormed(Shifting())
    ensures I.ComputePage(Shifting(), OneRowPage(1), TwoRows).pagy.count == 2
    ensures I.PageRecords(Shifting(), OneRowPage(1), TwoRows) == [Row0]
    ensures I.PageRecords(Shifting(), OneRowPage(2), TwoRows) == [Row0]
    ensures S.Paginate(Over(Shifting()), TwoRows, S.ListQuery(None, map[]), Some(1), Some(1)).records.records
        + S.Paginate(Over(Shifting()), TwoRows, S.ListQuery(None, map[]), Some(2), Some(1)).records.records
      == [Row0, Row1]
  {
    ShiftingPages();
    ShiftingCount();
    S.ListPagesTile(Over(Shifting()), TwoRows, None, map[], 1, 1);
    MatchesEverything(SecondOfOne);
    WindowsOfTwo(AllRows(TwoRows), 2);
  }
}

=== FILE: crud_service.dfy ===
/**
 * `CrudService`: a per-model service with cache-aside `find` and `list`, and
 * `create`/`update`/`destroy` that invalidate every cache entry under the
 * model's `crud/<name>/` namespace. `list` forces `id asc` on an unordered
 * query so that its pages are stable.
 *
 * Ruby exceptions become `Raised(...)`; the `ServiceError` raised for invalid
 * records carries the message the service builds. `RecordNotSaved` and
 * `RecordNotDestroyed`, raised when a callback aborts a write, are not rescued.
 */
module CrudService {
  import opened Maybe
  import opened Text
  import opened Records
  import opened Paging
  import opened RailsCache

  /** The service object: the model, whether caching is on, and its collaborators. */
  datatype Service = Service(
    model: ModelClass,
    useCache: bool,
    /** `Pagy::VARS[:items]`. */
    defaultItems: int,
    /** MD5 hex digest of the relation's SQL with `|page:..|items:..` appended. */
    fingerprint: (Relation, Option<int>, Option<int>) -> string)

  /** The exceptions that leave the service. */
  datatype Error = ServiceError(message: string) | RecordNotSaved | RecordNotDestroyed

  datatype Outcome<+T> = Returned(value: T) | Raised(error: Error)

  /** `15.minutes`, in seconds: the lifetime of `find` and `list` entries. */
  const CacheTtl := 900

  /** `crud/<name>/`: every key the service invalidates on a write starts with this. */
  function Namespace(s: Service): string {
    "crud/" + s.model.underscoredName + "/"
  }

  /** `"#{id}"`: the decimal id, empty for `nil`. */
  function IdText(id: Option<Id>): string {
    match id
    case None => ""
    case Some(i) => NatToString(i)
  }

  /** `default_find_key`: `crud/<name>/<id>`. */
  function DefaultFindKey(s: Service, id: Option<Id>): (k: string)
    ensures Namespace(s) <= k
  {
    Namespace(s) + IdText(id)
  }

  /** `default_list_key`: `crud/<name>/list/<fingerprint>`. */
  function DefaultListKey(s: Service, rel: Relation, page: Option<int>, items: Option<int>): (k: string)
    ensures Namespace(s) <= k
  {
    Namespace(s) + "list/" + s.fingerprint(rel, page, items)
  }

  /** Different ids get different default find keys. */
  lemma FindKeysSeparateIds(s: Service, a: Id, b: Id)
    requires a != b
    ensures DefaultFindKey(s, Some(a)) != DefaultFindKey(s, Some(b))
  {
    var pre := Namespace(s);
    if DefaultFindKey(s, Some(a)) == DefaultFindKey(s, Some(b)) {
      assert NatToString(a) == DefaultFindKey(s, Some(a))[|pre|..];
      assert NatToString(b) == DefaultFindKey(s, Some(b))[|pre|..];
      NatToStringInjective(a, b);
    }
  }

  /** A find key never collides with a list key: digits never spell "list/". */
  lemma FindKeysAreNotListKeys(s: Service, id: Option<Id>, rel: Relation, page: Option<int>, items: Option<int>)
    ensures DefaultFindKey(s, id) != DefaultListKey(s, rel, page, items)
  {
    var pre := Namespace(s);
    var f := DefaultFindKey(s, id);
    var l := DefaultListKey(s, rel, page, items);
    if id.Some? {
      assert f[|pre|] == NatToString(id.value)[0];
      assert IsDigit(f[|pre|]);
      assert l[|pre|] == 'l';
    } else {
      assert |f| < |l|;
    }
  }

  /** `ensure_ordered`: keep an existing order, otherwise order by `id asc`. */
  function EnsureOrdered(rel: Relation): (r: Relation)
    ensures r.order.Some?
    ensures r.conditions == rel.conditions
    ensures rel.order.Some? ==> r == rel
    ensures rel.order.None? ==> r.order == Some(IdAsc)
  {
    if rel.order.Some? then rel else rel.(order := Some(IdAsc))
  }

  /** The query `list` pages through: the base scope, narrowed by `conditions`, then ordered. */
  function ListQuery(scope: Option<Relation>, conditions: Conditions): (q: Relation)
    ensures q.conditions == scope.GetOr(All).conditions + (if |conditions| > 0 then [conditions] else [])
    ensures q.order == (if scope.GetOr(All).order.Some? then scope.GetOr(All).order else Some(IdAsc))
  {
    var base := scope.GetOr(All);
    var scoped := if |conditions| > 0 then base.(conditions := base.conditions + [conditions]) else base;
    EnsureOrdered(scoped)
  }

  /**
   * `pagy`: resolve page (default 1) and items (default `Pagy::VARS[:items]`),
   * count the query's rows and cut the window out of its ordered rows.
   */
  function Paginate(s: Service, db: Db, query: Relation, page: Option<int>, items: Option<int>): (v: Value)
    requires Valid(db)
    requires WellFormed(s.model)
    ensures v.Page? && v.records.Objects?
    ensures v.pagy == PageInfo(|Matching(s.model, db, query)|, page.GetOr(1), items.GetOr(s.defaultItems))
    ensures var p, n := page.GetOr(1), items.GetOr(s.defaultItems);
      v.records.records == PageOf(Load(s.model, db, query, Some(PageSlice(p, n))), p, n)
    ensures forall r | r in v.records.records ::
      r.id in db.rows && db.rows[r.id] == r.attrs && SatisfiesAll(s.model, query.conditions, r)
    ensures page.GetOr(1) >= 1 && items.GetOr(s.defaultItems) >= 1 ==>
      |v.records.records| <= items.GetOr(s.defaultItems)
  {
    var p := page.GetOr(1);
    var n := items.GetOr(s.defaultItems);
    var rows := Load(s.model, db, query, Some(PageSlice(p, n)));
    Page(PageInfo(|rows|, p, n), Objects(PageOf(rows, p, n)))
  }

  /** `find`: cache-aside under `cache_key` or `crud/<name>/<id>` when caching is on. */
  function Find(s: Service, id: Option<Id>, cacheKey: Option<string>, now: int, st: State): (res: (Value, State))
    ensures res.1.db == st.db
    ensures !s.useCache ==> res == (Found(FindBy(st.db, id)), st)
    ensures s.useCache ==>
      var key := cacheKey.GetOr(DefaultFindKey(s, id));
      && (Live(st.cache, key, now) ==> res == (st.cache[key].value, st))
      && (!Live(st.cache, key, now) ==>
            res.0 == Found(FindBy(st.db, id))
            && res.1.cache == st.cache[key := Entry(Found(FindBy(st.db, id)), now + CacheTtl)])
  {
    if s.useCache then
      var key := cacheKey.GetOr(DefaultFindKey(s, id));
      var (v, cache') := RailsCache.Fetch(st.cache, key, now, CacheTtl, Found(FindBy(st.db, id)));
      (v, State(st.db, cache'))
    else
      (Found(FindBy(st.db, id)), st)
  }

  /** `list`: filter, order, then page, through the cache under `crud/<name>/list/<digest>` when caching is on. */
  function List(s: Service, scope: Option<Relation>, cacheKey: Option<string>, page: Option<int>, items: Option<int>,
                conditions: Conditions, now: int, st: State): (res: (Value, State))
    requires Valid(st.db)
    requires WellFormed(s.model)
    ensures res.1.db == st.db
    ensures !s.useCache ==> res == (Paginate(s, st.db, ListQuery(scope, conditions), page, items), st)
    ensures s.useCache ==>
      var key := cacheKey.GetOr(DefaultListKey(s, ListQuery(scope, conditions), page, items));
      && (Live(st.cache, key, now) ==> res == (st.cache[key].value, st))
      && (!Live(st.cache, key, now) ==>
            var v := Paginate(s, st.db, ListQuery(scope, conditions), page, items);
            res.0 == v && res.1.cache == st.cache[key := Entry(v, now + CacheTtl)])
  {
    var query := ListQuery(scope, conditions);
    var computed := Paginate(s, st.db, query, page, items);
    if s.useCache then
      var key := cacheKey.GetOr(DefaultListKey(s, query, page, items));
      var (v, cache') := RailsCache.Fetch(st.cache, key, now, CacheTtl, computed);
      (v, State(st.db, cache'))
    else
      (computed, st)
  }

  /** `expire_cache_for_model`: `delete_matched` with the pattern `crud/<name>/` followed by a star. */
  function ExpireCacheForModel(s: Service, c: Cache): (c': Cache)
    ensures forall k | k in c' :: !(Namespace(s) <= k)
    ensures forall k | k in c && !(Namespace(s) <= k) :: k in c' && c'[k] == c[k]
    ensures c'.Keys <= c.Keys
  {
    DeleteMatched(c, Namespace(s))
  }

  /** The message of `ActiveRecord::RecordInvalid`: "Validation failed: " and the messages joined by ", ". */
  function RecordInvalidMessage(errors: seq<string>): string {
    "Validation failed: " + Join(errors, ", ")
  }

  /**
   * `create`: `create!` then expire the namespace. An invalid record raises
   * `ServiceError` "Create failed: ..." before the cache is touched; a save a
   * callback aborts raises `RecordNotSaved`, which is not rescued.
   */
  function Create(s: Service, attrs: Attrs, st: State): (res: (Outcome<Record>, State))
    requires Valid(st.db)
    ensures Valid(res.1.db)
    ensures s.model.validate(attrs) != [] ==>
      res == (Raised(ServiceError("Create failed: " + RecordInvalidMessage(s.model.validate(attrs)))), st)
    ensures s.model.validate(attrs) == [] && s.model.saveBlock(None, attrs).Some? ==>
      res == (Raised(RecordNotSaved), st)
    ensures s.model.validate(attrs) == [] && s.model.saveBlock(None, attrs).None? ==>
      && res.0 == Returned(Record(st.db.nextId, attrs))
      && st.db.nextId !in st.db.rows
      && res.1.db.rows == st.db.rows[st.db.nextId := attrs]
      && (forall k | k in res.1.cache :: !(Namespace(s) <= k))
      && (forall k | k in st.cache && !(Namespace(s) <= k) :: k in res.1.cache && res.1.cache[k] == st.cache[k])
  {
    var errors := s.model.validate(attrs);
    if errors != [] then
      (Raised(ServiceError("Create failed: " + RecordInvalidMessage(errors))), st)
    else if s.model.saveBlock(None, attrs).Some? then
      (Raised(RecordNotSaved), st)
    else
      var (db', record) := Insert(st.db, attrs);
      (Returned(record), State(db', ExpireCacheForModel(s, st.cache)))
  }

  /** `find_record_for_update`: always a table read, never the cache. */
  function FindRecordForUpdate(db: Db, id: Option<Id>): (r: Option<Record>)
    ensures r.Some? <==> id.Some? && id.value in db.rows
    ensures r.Some? ==> r.value == Record(id.value, db.rows[id.value])
  {
    FindBy(db, id)
  }

  /** The cache after a successful update or destroy: the find key, then the namespace. */
  function ExpireAfterWrite(s: Service, id: Option<Id>, cacheKey: Option<string>, c: Cache): (c': Cache)
    ensures cacheKey.GetOr(DefaultFindKey(s, id)) !in c'
    ensures forall k | k in c' :: !(Namespace(s) <= k)
    ensures forall k | k in c && !(Namespace(s) <= k) && k != cacheKey.GetOr(DefaultFindKey(s, id)) ::
      k in c' && c'[k] == c[k]
  {
    ExpireCacheForModel(s, Delete(c, cacheKey.GetOr(DefaultFindKey(s, id))))
  }

  /**
   * `update`: `nil` for a missing id, with nothing changed. Otherwise `update!`
   * the merged attributes, delete the find key and expire the namespace; an
   * invalid record raises `ServiceError` "Update failed: ..." with the cache
   * untouched, and a save a callback aborts raises `RecordNotSaved`, unrescued.
   */
  function Update(s: Service, id: Option<Id>, attrs: Attrs, cacheKey: Option<string>, st: State)
    : (res: (Outcome<Option<Record>>, State))
    requires Valid(st.db)
    ensures Valid(res.1.db)
    ensures FindBy(st.db, id).None? ==> res == (Returned(None), st)
    ensures FindBy(st.db, id).Some? ==>
      var merged := FindBy(st.db, id).value.attrs + attrs;
      && (s.model.validate(merged) != [] ==>
            res == (Raised(ServiceError("Update failed: " + RecordInvalidMessage(s.model.validate(merged)))), st))
      && (s.model.validate(merged) == [] && s.model.saveBlock(id, merged).Some? ==>
            res == (Raised(RecordNotSaved), st))
      && (s.model.validate(merged) == [] && s.model.saveBlock(id, merged).None? ==>
            && res.0 == Returned(Some(Record(id.value, merged)))
            && res.1.db.rows == st.db.rows[id.value := merged]
            && res.1.cache == ExpireAfterWrite(s, id, cacheKey, st.cache))
  {
    match FindRecordForUpdate(st.db, id)
    case None => (Returned(None), st)
    case Some(record) =>
      var merged := record.attrs + attrs;
      var errors := s.model.validate(merged);
      if errors != [] then
        (Raised(ServiceError("Update failed: " + RecordInvalidMessage(errors))), st)
      else if s.model.saveBlock(Some(record.id), merged).Some? then
        (Raised(RecordNotSaved), st)
      else
        var db' := st.db.(rows := st.db.rows[record.id := merged]);
        (Returned(Some(Record(record.id, merged))), State(db', ExpireAfterWrite(s, id, cacheKey, st.cache)))
  }

  /**
   * `destroy`: `false` (here `None`) for a missing id, with nothing changed.
   * Otherwise `destroy!`, delete the find key and expire the namespace. A
   * destroy a callback aborts raises `RecordNotDestroyed`, which the service
   * does not rescue, and changes nothing.
   */
  function Destroy(s: Service, id: Option<Id>, cacheKey: Option<string>, st: State)
    : (res: (Outcome<Option<Record>>, State))
    requires Valid(st.db)
    ensures Valid(res.1.db)
    ensures FindBy(st.db, id).None? ==> res == (Returned(None), st)
    ensures FindBy(st.db, id).Some? ==>
      var record := FindBy(st.db, id).value;
      && (s.model.destroyBlock(record).Some? ==> res == (Raised(RecordNotDestroyed), st))
      && (s.model.destroyBlock(record).None? ==>
            && res.0 == Returned(Some(record))
            && res.1.db.rows == st.db.rows - {record.id}
            && res.1.cache == ExpireAfterWrite(s, id, cacheKey, st.cache))
  {
    match FindRecordForUpdate(st.db, id)
    case None => (Returned(None), st)
    case Some(record) =>
      if s.model.destroyBlock(record).Some? then
        (Raised(RecordNotDestroyed), st)
      else
        var db' := st.db.(rows := st.db.rows - {record.id});
        (Returned(Some(record)), State(db', ExpireAfterWrite(s, id, cacheKey, st.cache)))
  }

  /** Whether a write call succeeded and so expired the namespace. */
  predicate Wrote<T>(res: (Outcome<Option<T>>, State)) {
    res.0.Returned? && res.0.value.Some?
  }

  /**
   * The invalidation invariant: after any successful `create`, `update` or
   * `destroy`, no cache key under `crud/<name>/` survives.
   */
  lemma WritesClearNamespace(s: Service, st: State, attrs: Attrs, id: Option<Id>, cacheKey: Option<string>)
    requires Valid(st.db)
    ensures Create(s, attrs, st).0.Returned? ==>
      forall k | k in Create(s, attrs, st).1.cache :: !(Namespace(s) <= k)
    ensures Wrote(Update(s, id, attrs, cacheKey, st)) ==>
      forall k | k in Update(s, id, attrs, cacheKey, st).1.cache :: !(Namespace(s) <= k)
    ensures Wrote(Destroy(s, id, cacheKey, st)) ==>
      forall k | k in Destroy(s, id, cacheKey, st).1.cache :: !(Namespace(s) <= k)
  {
    CreateClearsNamespace(s, st, attrs);
    UpdateClearsNamespace(s, st, attrs, id, cacheKey);
    DestroyClearsNamespace(s, st, id, cacheKey);
  }

  /** A create that returns leaves no key of the model's namespace in the cache. */
  lemma CreateClearsNamespace(s: Service, st: State, attrs: Attrs)
    requires Valid(st.db)
    ensures Create(s, attrs, st).0.Returned? ==>
      forall k | k in Create(s, attrs, st).1.cache :: !(Namespace(s) <= k)
  {
  }

  /** An update that writes leaves no key of the model's namespace in the cache. */
  lemma UpdateClearsNamespace(s: Service, st: State, attrs: Attrs, id: Option<Id>, cacheKey: Option<string>)
    requires Valid(st.db)
    ensures Wrote(Update(s, id, attrs, cacheKey, st)) ==>
      forall k | k in Update(s, id, attrs, cacheKey, st).1.cache :: !(Namespace(s) <= k)
  {
  }

  /** A destroy that writes leaves no key of the model's namespace in the cache. */
  lemma DestroyClearsNamespace(s: Service, st: State, id: Option<Id>, cacheKey: Option<string>)
    requires Valid(st.db)
    ensures Wrote(Destroy(s, id, cacheKey, st)) ==>
      forall k | k in Destroy(s, id, cacheKey, st).1.cache :: !(Namespace(s) <= k)
  {
  }

  /** `destroy` decides from the table alone: the cache's contents never change its answer or the table. */
  lemma DestroyIgnoresCache(s: Service, db: Db, c1: Cache, c2: Cache, id: Option<Id>, cacheKey: Option<string>)
    requires Valid(db)
    ensures Destroy(s, id, cacheKey, State(db, c1)).0 == Destroy(s, id, cacheKey, State(db, c2)).0
    ensures Destroy(s, id, cacheKey, State(db, c1)).1.db == Destroy(s, id, cacheKey, State(db, c2)).1.db
  {
  }

  /**
   * After a successful `update` under the default key, the next `find` of that
   * id reads the table and sees the new attributes, cache or no cache.
   */
  lemma FindAfterUpdateIsFresh(s: Service, id: Id, attrs: Attrs, st: State, now: int)
    requires Valid(st.db)
    requires Wrote(Update(s, Some(id), attrs, None, st))
    ensures var st' := Update(s, Some(id), attrs, None, st).1;
      Find(s, Some(id), None, now, st').0 == Found(Some(Record(id, st.db.rows[id] + attrs)))
  {
    var st' := Update(s, Some(id), attrs, None, st).1;
    assert !Live(st'.cache, DefaultFindKey(s, Some(id)), now);
  }

  /**
   * After a successful `create`, a default-keyed `find` of the new id returns
   * the created record, cache or no cache.
   */
  lemma CreateThenFind(s: Service, attrs: Attrs, st: State, now: int)
    requires Valid(st.db)
    requires Create(s, attrs, st).0.Returned?
    ensures var (created, st') := Create(s, attrs, st);
      Find(s, Some(created.value.id), None, now, st').0 == Found(Some(created.value))
  {
    var st' := Create(s, attrs, st).1;
    assert !Live(st'.cache, DefaultFindKey(s, Some(st.db.nextId)), now);
  }

  /**
   * After a successful `create`, the next default-keyed `list` misses the cache
   * and pages through the table as it now is.
   */
  lemma ListAfterCreateIsFresh(s: Service, attrs: Attrs, st: State, scope: Option<Relation>,
                               page: Option<int>, items: Option<int>, conditions: Conditions, now: int)
    requires Valid(st.db)
    requires WellFormed(s.model)
    requires Create(s, attrs, st).0.Returned?
    ensures var st' := Create(s, attrs, st).1;
      List(s, scope, None, page, items, conditions, now, st').0
        == Paginate(s, st'.db, ListQuery(scope, conditions), page, items)
  {
    var st' := Create(s, attrs, st).1;
    var key := DefaultListKey(s, ListQuery(scope, conditions), page, items);
    assert !Live(st'.cache, key, now);
  }

  /**
   * With no order of its own, a listed page is a run of the matching rows in
   * ascending id order: at most `items` of them, the ones at positions
   * `(page-1)*items + i` of the id-ordered, filtered table.
   */
  lemma ListPageIsIdOrdered(s: Service, db: Db, scope: Option<Relation>, conditions: Conditions,
                            page: Option<int>, items: Option<int>)
    requires Valid(db)
    requires WellFormed(s.model)
    requires scope.None? || scope.value.order.None?
    requires page.GetOr(1) >= 1 && items.GetOr(s.defaultItems) >= 1
    ensures var rows := Matching(s.model, db, ListQuery(scope, conditions));
      && Ascending(rows)
      && (forall r :: r in rows <==>
            r.id in db.rows && db.rows[r.id] == r.attrs && SatisfiesAll(s.model, ListQuery(scope, conditions).conditions, r))
      && Paginate(s, db, ListQuery(scope, conditions), page, items)
           == Page(PageInfo(|rows|, page.GetOr(1), items.GetOr(s.defaultItems)),
                   Objects(PageOf(rows, page.GetOr(1), items.GetOr(s.defaultItems))))
      && Ascending(PageOf(rows, page.GetOr(1), items.GetOr(s.defaultItems)))
  {
    var q := ListQuery(scope, conditions);
    var p, n := page.GetOr(1), items.GetOr(s.defaultItems);
    ListQueryIsIdOrdered(scope, conditions);
    LoadById(s.model, db, q, Some(PageSlice(p, n)));
    PageKeepsAscending(Matching(s.model, db, q), p, n);
  }

  /**
   * With no order of its own, consecutive listed pages tile the matching rows:
   * page `p` followed by page `p + 1` is the double-width window, so no row is
   * listed twice or skipped between them.
   */
  lemma ListPagesTile(s: Service, db: Db, scope: Option<Relation>, conditions: Conditions, page: int, items: int)
    requires Valid(db)
    requires WellFormed(s.model)
    requires scope.None? || scope.value.order.None?
    requires page >= 1 && items >= 1
    ensures var q := ListQuery(scope, conditions);
      Paginate(s, db, q, Some(page), Some(items)).records.records
        + Paginate(s, db, q, Some(page + 1), Some(items)).records.records
        == Window(Matching(s.model, db, q), Offset(page, items), 2 * items)
  {
    ListQueryIsIdOrdered(scope, conditions);
    IdOrderedPagesTile(s, db, ListQuery(scope, conditions), page, items);
  }

  /** `ensure_ordered` gives a list query with no order of its own `id asc`. */
  lemma ListQueryIsIdOrdered(scope: Option<Relation>, conditions: Conditions)
    requires scope.None? || scope.value.order.None?
    ensures ListQuery(scope, conditions).order == Some(IdAsc)
  {
  }

  /** Under `id asc`, page `p` followed by page `p + 1` is the double-width window of the matching rows. */
  lemma IdOrderedPagesTile(s: Service, db: Db, q: Relation, page: int, items: int)
    requires Valid(db)
    requires WellFormed(s.model)
    requires q.order == Some(IdAsc)
    requires page >= 1 && items >= 1
    ensures Paginate(s, db, q, Some(page), Some(items)).records.records
        + Paginate(s, db, q, Some(page + 1), Some(items)).records.records
        == Window(Matching(s.model, db, q), Offset(page, items), 2 * items)
  {
    IdOrderedPageAt(s, db, q, page, items);
    IdOrderedPageAt(s, db, q, page + 1, items);
    JoinPages(Paginate(s, db, q, Some(page), Some(items)).records.records,
              Paginate(s, db, q, Some(page + 1), Some(items)).records.records,
              Matching(s.model, db, q), page, items);
  }

  /** Under `id asc`, a page is the window at its offset of the matching rows, whatever the query. */
  lemma IdOrderedPage(s: Service, db: Db, q: Relation, page: Option<int>, items: Option<int>)
    requires Valid(db)
    requires WellFormed(s.model)
    requires q.order == Some(IdAsc)
    ensures var p, n := page.GetOr(1), items.GetOr(s.defaultItems);
      Paginate(s, db, q, page, items).records.records == Window(Matching(s.model, db, q), Offset(p, n), n)
  {
    var p, n := page.GetOr(1), items.GetOr(s.defaultItems);
    LoadById(s.model, db, q, Some(PageSlice(p, n)));
  }

  /** `IdOrderedPage` for an explicit page and page size. */
  lemma IdOrderedPageAt(s: Service, db: Db, q: Relation, page: int, items: int)
    requires Valid(db)
    requires WellFormed(s.model)
    requires q.order == Some(IdAsc)
    ensures Paginate(s, db, q, Some(page), Some(items)).records.records
      == Window(Matching(s.model, db, q), Offset(page, items), items)
  {
    IdOrderedPage(s, db, q, Some(page), Some(items));
  }

  /** A page cut from id-ordered rows is itself id-ordered. */
  lemma PageKeepsAscending(rows: seq<Record>, page: int, items: int)
    requires Ascending(rows)
    requires page >= 1 && items >= 1
    ensures Ascending(PageOf(rows, page, items))
  {
    var w := PageOf(rows, page, items);
    var off := Offset(page, items);
    forall i, j | 0 <= i < j < |w| ensures w[i].id < w[j].id {
      assert w[i] == rows[off + i] && w[j] == rows[off + j];
    }
  }
}

=== FILE: generic_crud_interactor.dfy ===
/**
 * `GenericCrudInteractor`: one entry point that dispatches on an action symbol
 * to create, read, update or delete a single record, or to fetch a page of
 * records through the cache. Single-record actions never touch the cache and
 * `fetch` applies no ordering of its own.
 *
 * The interactor's mutable context becomes an immutable `Request` in and an
 * `Outcome` plus the new `State` out; `context.fail!(error: e)` becomes
 * `Failure(e)`.
 */
module GenericCrudInteractor {
  import opened Maybe
  import opened Text
  import opened Records
  import opened Paging
  import opened RailsCache

  /** `context.action`. Any symbol other than the five known ones is `Unknown`. */
  datatype Action = Create | Read | Update | Delete | Fetch | Unknown(symbol: string)

  /** The interactor's context as callers fill it in. */
  datatype Request = Request(
    action: Action,
    /** `context.params`; an absent hash is the empty one, as `model.new(nil)` reads it. */
    params: Attrs,
    id: Option<Id>,
    ransackParams: Option<FilterParams>,
    /** `context[:pagy_params][:page]` and `[:items]`, already through `to_i`. */
    page: Option<int>,
    items: Option<int>,
    cacheKey: Option<string>,
    /** `context.expires_in` in seconds. */
    expiresIn: Option<int>,
    /** `context.format` as the symbol's name, e.g. "json". */
    format: Option<string>)

  /** What a successful call leaves in the context: one record, or what `fetch` read. */
  datatype Payload = One(record: Shown) | Fetched(value: Value)

  /** `context.success?` with the payload, or `context.failure?` with `context.error`. */
  datatype Outcome = Success(payload: Payload) | Failure(error: string)

  const NotFoundError := "Record not found"
  const UnknownActionError := "Unknown action"

  /** `5.minutes`, in seconds. */
  const DefaultExpiresIn := 300
  const DefaultPage := 1
  const DefaultItems := 20

  /** `call`: dispatch on the action. */
  function Call(m: ModelClass, req: Request, now: int, st: State): (res: (Outcome, State))
    requires Valid(st.db)
    requires WellFormed(m)
    ensures Valid(res.1.db)
    ensures req.action.Unknown? ==> res == (Failure(UnknownActionError), st)
    ensures !req.action.Fetch? ==> res.1.cache == st.cache
    ensures req.action.Read? || req.action.Fetch? ==> res.1.db == st.db
    ensures res.0.Success? && res.0.payload.One? ==> req.action in {Create, Read, Update, Delete}
  {
    match req.action
    case Create => CreateRecord(m, req, st)
    case Read => ReadRecord(m, req, st)
    case Update => UpdateRecord(m, req, st)
    case Delete => DeleteRecord(m, req, st)
    case Fetch => FetchRecords(m, req, now, st)
    case Unknown(_) => (Failure(UnknownActionError), st)
  }

  /**
   * `create_record`: build from `params` and save. An invalid record fails with
   * its validation messages, and a save a callback aborts with whatever
   * messages the callback left; either way nothing is stored.
   */
  function CreateRecord(m: ModelClass, req: Request, st: State): (res: (Outcome, State))
    requires Valid(st.db)
    ensures Valid(res.1.db)
    ensures res.1.cache == st.cache
    ensures m.validate(req.params) != [] ==>
      res == (Failure(ToSentence(m.validate(req.params))), st)
    ensures m.validate(req.params) == [] && m.saveBlock(None, req.params).Some? ==>
      res == (Failure(ToSentence(m.saveBlock(None, req.params).value)), st)
    ensures m.validate(req.params) == [] && m.saveBlock(None, req.params).None? ==>
      && res.0 == Success(One(FormatRecord(m, req.format, Record(st.db.nextId, req.params))))
      && st.db.nextId !in st.db.rows
      && res.1.db.rows == st.db.rows[st.db.nextId := req.params]
      && |res.1.db.rows| == |st.db.rows| + 1
  {
    var errors := m.validate(req.params);
    if errors != [] then
      (Failure(ToSentence(errors)), st)
    else
      match m.saveBlock(None, req.params)
      case Some(messages) => (Failure(ToSentence(messages)), st)
      case None =>
        var (db', record) := Insert(st.db, req.params);
        (Success(One(FormatRecord(m, req.format, record))), State(db', st.cache))
  }

  /** `read_record`: the record with `context.id`, or "Record not found". */
  function ReadRecord(m: ModelClass, req: Request, st: State): (res: (Outcome, State))
    ensures res.1 == st
    ensures req.id.None? || req.id.value !in st.db.rows ==> res.0 == Failure(NotFoundError)
    ensures req.id.Some? && req.id.value in st.db.rows ==>
      res.0 == Success(One(FormatRecord(m, req.format, Record(req.id.value, st.db.rows[req.id.value]))))
  {
    match FindBy(st.db, req.id)
    case None => (Failure(NotFoundError), st)
    case Some(record) => (Success(One(FormatRecord(m, req.format, record))), st)
  }

  /**
   * A successful `create` followed by a `read` of the new id, in the same
   * format, returns exactly what the `create` returned and changes nothing.
   */
  lemma CreateThenRead(m: ModelClass, req: Request, now: int, st: State)
    requires Valid(st.db)
    requires WellFormed(m)
    requires req.action == Create && m.validate(req.params) == [] && m.saveBlock(None, req.params).None?
    ensures var created := Call(m, req, now, st);
      var read := req.(action := Read, id := Some(st.db.nextId));
      && created.0.Success?
      && Call(m, read, now, created.1) == created
  {
  }

  /**
   * `update_record`: merge `params` into the found record and save it. A missing
   * record fails with "Record not found", an invalid one with its messages, and
   * a save a callback aborts with the messages the callback left.
   */
  function UpdateRecord(m: ModelClass, req: Request, st: State): (res: (Outcome, State))
    requires Valid(st.db)
    ensures Valid(res.1.db)
    ensures res.1.cache == st.cache
    ensures req.id.None? || req.id.value !in st.db.rows ==> res == (Failure(NotFoundError), st)
    ensures req.id.Some? && req.id.value in st.db.rows ==>
      var id := req.id.value;
      var merged := st.db.rows[id] + req.params;
      && (m.validate(merged) != [] ==> res == (Failure(ToSentence(m.validate(merged))), st))
      && (m.validate(merged) == [] && m.saveBlock(Some(id), merged).Some? ==>
            res == (Failure(ToSentence(m.saveBlock(Some(id), merged).value)), st))
      && (m.validate(merged) == [] && m.saveBlock(Some(id), merged).None? ==>
            && res.0 == Success(One(FormatRecord(m, req.format, Record(id, merged))))
            && res.1.db.rows == st.db.rows[id := merged]
            && res.1.db.rows.Keys == st.db.rows.Keys)
  {
    match FindBy(st.db, req.id)
    case None => (Failure(NotFoundError), st)
    case Some(record) =>
      var merged := record.attrs + req.params;
      var errors := m.validate(merged);
      if errors != [] then
        (Failure(ToSentence(errors)), st)
      else
        match m.saveBlock(Some(record.id), merged)
        case Some(messages) => (Failure(ToSentence(messages)), st)
        case None =>
          var db' := st.db.(rows := st.db.rows[record.id := merged]);
          (Success(One(FormatRecord(m, req.format, Record(record.id, merged)))), State(db', st.cache))
  }

  /**
   * `delete_record`: destroy the found record and hand back its last snapshot.
   * A missing record fails with "Record not found", a destroy a callback
   * aborts with the record's messages.
   */
  function DeleteRecord(m: ModelClass, req: Request, st: State): (res: (Outcome, State))
    requires Valid(st.db)
    ensures Valid(res.1.db)
    ensures res.1.cache == st.cache
    ensures req.id.None? || req.id.value !in st.db.rows ==> res == (Failure(NotFoundError), st)
    ensures req.id.Some? && req.id.value in st.db.rows ==>
      var record := Record(req.id.value, st.db.rows[req.id.value]);
      && (m.destroyBlock(record).Some? ==> res == (Failure(ToSentence(m.destroyBlock(record).value)), st))
      && (m.destroyBlock(record).None? ==>
            && res.0 == Success(One(FormatRecord(m, req.format, record)))
            && res.1.db.rows == st.db.rows - {record.id}
            && |res.1.db.rows| == |st.db.rows| - 1)
  {
    match FindBy(st.db, req.id)
    case None => (Failure(NotFoundError), st)
    case Some(record) =>
      match m.destroyBlock(record)
      case Some(errors) => (Failure(ToSentence(errors)), st)
      case None =>
        var db' := st.db.(rows := st.db.rows - {record.id});
        (Success(One(FormatRecord(m, req.format, record))), State(db', st.cache))
  }

  /** `pagy_page`: the requested page, 1 when absent. */
  function PagyPage(req: Request): (p: int)
    ensures req.page.None? ==> p == DefaultPage
    ensures req.page.Some? ==> p == req.page.value
  {
    req.page.GetOr(DefaultPage)
  }

  /** `pagy_items`: the requested page size, 20 when absent. */
  function PagyItems(req: Request): (n: int)
    ensures req.items.None? ==> n == DefaultItems
    ensures req.items.Some? ==> n == req.items.value
  {
    req.items.GetOr(DefaultItems)
  }

  /** `ransack_params&.to_param`, interpolated: empty for `nil`. */
  function RansackText(m: ModelClass, req: Request): string {
    match req.ransackParams
    case None => ""
    case Some(p) => m.toParam(p)
  }

  /** The five segments of `default_cache_key`, none of them `nil`, so `compact` keeps all. */
  function KeySegments(m: ModelClass, req: Request): seq<string> {
    [m.name,
     "page:" + IntToString(PagyPage(req)),
     "items:" + IntToString(PagyItems(req)),
     "ransack:" + RansackText(m, req),
     "format:" + req.format.GetOr("")]
  }

  /** `default_cache_key`: `Name/page:p/items:n/ransack:<params>/format:<fmt>`. */
  function DefaultCacheKey(m: ModelClass, req: Request): (k: string)
    ensures m.name + "/page:" <= k
  {
    m.name
      + "/page:" + IntToString(PagyPage(req))
      + "/items:" + IntToString(PagyItems(req))
      + "/ransack:" + RansackText(m, req)
      + "/format:" + req.format.GetOr("")
  }

  /** The default key is the five segments joined by "/", as the source builds it. */
  lemma DefaultKeyIsJoin(m: ModelClass, req: Request)
    ensures DefaultCacheKey(m, req) == Join(KeySegments(m, req), "/")
  {
    var p, n := IntToString(PagyPage(req)), IntToString(PagyItems(req));
    var q, f := RansackText(m, req), req.format.GetOr("");
    JoinFive(m.name, "page:" + p, "items:" + n, "ransack:" + q, "format:" + f, "/");
    assert "/page:" == "/" + "page:";
    var k1 := m.name + "/page:" + p;
    AppendSegment(m.name, "page:", p);
    assert "/items:" == "/" + "items:";
    var k2 := k1 + "/items:" + n;
    AppendSegment(k1, "items:", n);
    assert "/ransack:" == "/" + "ransack:";
    var k3 := k2 + "/ransack:" + q;
    AppendSegment(k2, "ransack:", q);
    assert "/format:" == "/" + "format:";
    AppendSegment(k3, "format:", f);
  }

  /** Appending `"/" + tag` and then a value is appending the separator and then the tagged value. */
  lemma AppendSegment(key: string, tag: string, value: string)
    ensures key + ("/" + tag) + value == key + "/" + (tag + value)
  {
  }

  /** The key `fetch` uses: the caller's `cache_key`, else the default key. */
  function FetchKey(m: ModelClass, req: Request): string {
    req.cacheKey.GetOr(DefaultCacheKey(m, req))
  }

  /** `ransack_params.present?`: a nil or empty hash applies no filter. */
  predicate Filters(req: Request) {
    req.ransackParams.Some? && |req.ransackParams.value| > 0
  }

  /** Whether the request's filter keeps a row. */
  predicate Accepts(m: ModelClass, req: Request, r: Record) {
    Filters(req) ==> m.ransack(req.ransackParams.value, r)
  }

  /** The keys of the table rows the request's filter keeps. */
  function AcceptedIds(m: ModelClass, req: Request, db: Db): set<Id> {
    set id | id in db.rows && Accepts(m, req, Record(id, db.rows[id]))
  }

  /** The rows `fetch` selects, in key order: all rows, narrowed by Ransack when parameters are present. */
  function Filtered(m: ModelClass, req: Request, db: Db): (rs: seq<Record>)
    requires Valid(db)
    ensures Ascending(rs)
    ensures forall r :: r in rs <==> r.id in db.rows && db.rows[r.id] == r.attrs && Accepts(m, req, r)
  {
    if Filters(req) then Where(AllRows(db), r => m.ransack(req.ransackParams.value, r)) else AllRows(db)
  }

  /** `scope.count`: the number of rows the filter keeps. */
  lemma FilteredCount(m: ModelClass, req: Request, db: Db)
    requires Valid(db)
    ensures |Filtered(m, req, db)| == |AcceptedIds(m, req, db)|
  {
    var rs := Filtered(m, req, db);
    AscendingIds(rs);
    FilteredIds(m, req, db);
  }

  /** The keys of the filtered rows are the accepted table keys. */
  lemma FilteredIds(m: ModelClass, req: Request, db: Db)
    requires Valid(db)
    ensures Ids(Filtered(m, req, db)) == AcceptedIds(m, req, db)
  {
    var rs := Filtered(m, req, db);
    forall id | id in AcceptedIds(m, req, db) ensures id in Ids(rs) {
      assert Record(id, db.rows[id]) in rs;
    }
  }

  /**
   * The scope `fetch` pages through: the filtered rows in whatever order the
   * database returns them, without an ORDER BY, to the page's query.
   */
  function Scope(m: ModelClass, req: Request, db: Db): (rs: seq<Record>)
    requires Valid(db)
    requires WellFormed(m)
    ensures multiset(rs) == multiset(Filtered(m, req, db))
    ensures forall r :: r in rs <==> r.id in db.rows && db.rows[r.id] == r.attrs && Accepts(m, req, r)
  {
    var rs := m.unordered(Filtered(m, req, db), Some(PageSlice(PagyPage(req), PagyItems(req))));
    assert forall r :: r in rs <==> r in multiset(rs);
    rs
  }

  /** The rows of the requested page: `scope.offset((page - 1) * items).limit(items)`. */
  function PageRecords(m: ModelClass, req: Request, db: Db): (w: seq<Record>)
    requires Valid(db)
    requires WellFormed(m)
    ensures forall r | r in w :: r.id in db.rows && db.rows[r.id] == r.attrs && Accepts(m, req, r)
    ensures PagyPage(req) >= 1 && PagyItems(req) >= 1 ==> |w| <= PagyItems(req)
  {
    PageOf(Scope(m, req, db), PagyPage(req), PagyItems(req))
  }

  /**
   * The block of `Rails.cache.fetch` in `fetch_records`: `[pagy, format_records(records)]`,
   * where Pagy counts every row the filter keeps.
   */
  function ComputePage(m: ModelClass, req: Request, db: Db): (v: Value)
    requires Valid(db)
    requires WellFormed(m)
    ensures v.Page? && v.pagy == PageInfo(|AcceptedIds(m, req, db)|, PagyPage(req), PagyItems(req))
    ensures req.format != Some("json") && req.format != Some("turbo_stream") ==>
      v.records == Objects(PageRecords(m, req, db))
    ensures req.format == Some("json") ==>
      var rows := PageRecords(m, req, db);
      && v.records.JsonList? && |v.records.items| == |rows|
      && forall i | 0 <= i < |rows| :: v.records.items[i] == AsJson(rows[i])
  {
    FilteredCount(m, req, db);
    Page(PageInfo(|Filtered(m, req, db)|, PagyPage(req), PagyItems(req)),
         FormatRecords(m, req.format, PageRecords(m, req, db)))
  }

  /** `fetch_records`: cache-aside over `ComputePage` with `expires_in` defaulting to 5 minutes. */
  function FetchRecords(m: ModelClass, req: Request, now: int, st: State): (res: (Outcome, State))
    requires Valid(st.db)
    requires WellFormed(m)
    ensures res.1.db == st.db
    ensures Live(st.cache, FetchKey(m, req), now) ==>
      res == (Success(Fetched(st.cache[FetchKey(m, req)].value)), st)
    ensures !Live(st.cache, FetchKey(m, req), now) ==>
      var v := ComputePage(m, req, st.db);
      && res.0 == Success(Fetched(v))
      && res.1.cache == st.cache[FetchKey(m, req) := Entry(v, now + req.expiresIn.GetOr(DefaultExpiresIn))]
  {
    var key := FetchKey(m, req);
    var computed := ComputePage(m, req, st.db);
    var (v, cache') := RailsCache.Fetch(st.cache, key, now, req.expiresIn.GetOr(DefaultExpiresIn), computed);
    (Success(Fetched(v)), State(st.db, cache'))
  }

  /**
   * On a miss, `fetch` returns Pagy's count of the rows the filter keeps with
   * the requested (or default) page and size, and that page's window of the
   * scope, formatted: at most `items` rows, each a table row the filter keeps,
   * as `as_json` hashes for `:json` and as records for formats other than
   * `:json` and `:turbo_stream`. Past the last page Pagy raises instead; this
   * model returns the empty window.
   */
  lemma FetchMissWindow(m: ModelClass, req: Request, now: int, st: State)
    requires Valid(st.db)
    requires WellFormed(m)
    requires !Live(st.cache, FetchKey(m, req), now)
    ensures var res := FetchRecords(m, req, now, st).0;
      var rows := PageOf(Scope(m, req, st.db), PagyPage(req), PagyItems(req));
      && res == Success(Fetched(Page(PageInfo(|AcceptedIds(m, req, st.db)|, PagyPage(req), PagyItems(req)),
                                     FormatRecords(m, req.format, rows))))
      && (forall r | r in rows :: r.id in st.db.rows && st.db.rows[r.id] == r.attrs && Accepts(m, req, r))
      && (PagyPage(req) >= 1 && PagyItems(req) >= 1 ==> |rows| <= PagyItems(req))
      && (req.format != Some("json") && req.format != Some("turbo_stream") ==>
            res.payload.value.records == Objects(rows))
      && (req.format == Some("json") ==>
            && res.payload.value.records.JsonList? && |res.payload.value.records.items| == |rows|
            && forall i | 0 <= i < |rows| :: res.payload.value.records.items[i] == AsJson(rows[i]))
  {
  }

  /** On a hit, `fetch` does not look at the table: any table gives the same answer. */
  lemma FetchHitIgnoresStore(m: ModelClass, req: Request, now: int, cache: Cache, db1: Db, db2: Db)
    requires Valid(db1) && Valid(db2)
    requires WellFormed(m)
    requires Live(cache, FetchKey(m, req), now)
    ensures FetchRecords(m, req, now, State(db1, cache)).0 == FetchRecords(m, req, now, State(db2, cache)).0
  {
  }

  /** Repeating a `fetch` within its time-to-live returns the same result and changes nothing. */
  lemma RepeatedFetchIsStable(m: ModelClass, req: Request, now: int, later: int, st: State)
    requires Valid(st.db)
    requires WellFormed(m)
    requires now <= later
    requires Live(st.cache, FetchKey(m, req), later)
      || (!Live(st.cache, FetchKey(m, req), now) && later < now + req.expiresIn.GetOr(DefaultExpiresIn))
    ensures var first := FetchRecords(m, req, now, st);
      FetchRecords(m, req, later, first.1) == first
  {
    var key := FetchKey(m, req);
    FetchThenHit(st.cache, key, now, req.expiresIn.GetOr(DefaultExpiresIn), ComputePage(m, req, st.db),
                 later, ComputePage(m, req, st.db));
  }

  /** What follows the page number in the default key. */
  function PageSuffix(m: ModelClass, req: Request): string {
    "/items:" + IntToString(PagyItems(req)) + ItemsSuffix(m, req)
  }

  /** What follows the page size in the default key. */
  function ItemsSuffix(m: ModelClass, req: Request): string {
    "/ransack:" + RansackText(m, req) + "/format:" + req.format.GetOr("")
  }

  /** The default key read around its page number and around its page size. */
  lemma DefaultKeyShape(m: ModelClass, req: Request)
    ensures DefaultCacheKey(m, req) == m.name + "/page:" + IntToString(PagyPage(req)) + PageSuffix(m, req)
    ensures DefaultCacheKey(m, req)
      == m.name + "/page:" + IntToString(PagyPage(req)) + "/items:" + IntToString(PagyItems(req)) + ItemsSuffix(m, req)
  {
    var head := m.name + "/page:" + IntToString(PagyPage(req));
    var i := IntToString(PagyItems(req));
    var r, f := RansackText(m, req), req.format.GetOr("");
    RegroupTail(head + "/items:" + i, "/ransack:", r, "/format:", f);
    RegroupHead(head, "/items:", i, ItemsSuffix(m, req));
  }

  /** `h + a + b + c + d` read as `h` followed by the rest. */
  lemma RegroupTail(h: string, a: string, b: string, c: string, d: string)
    ensures h + a + b + c + d == h + (a + b + c + d)
  {
    assert h + a + b == h + (a + b);
    assert h + (a + b) + c == h + (a + b + c);
  }

  /** `h + a + b + c` read as `h` followed by the rest. */
  lemma RegroupHead(h: string, a: string, b: string, c: string)
    ensures h + a + b + c == h + (a + b + c)
  {
    assert h + a + b == h + (a + b);
  }

  /** Two requests that differ only in the page they ask for get different default keys. */
  lemma DefaultKeySeparatesPages(m: ModelClass, a: Request, b: Request)
    requires b == a.(page := b.page)
    requires PagyPage(a) != PagyPage(b)
    ensures DefaultCacheKey(m, a) != DefaultCacheKey(m, b)
  {
    DefaultKeyShape(m, a);
    DefaultKeyShape(m, b);
    assert PageSuffix(m, b) == PageSuffix(m, a) by {
      assert PagyItems(b) == PagyItems(a) && RansackText(m, b) == RansackText(m, a) && b.format == a.format;
    }
    if DefaultCacheKey(m, a) == DefaultCacheKey(m, b) {
      CancelFrame(m.name + "/page:", IntToString(PagyPage(a)), IntToString(PagyPage(b)), PageSuffix(m, a));
      IntToStringInjective(PagyPage(a), PagyPage(b));
    }
  }

  /** Two requests that differ only in their page size get different default keys. */
  lemma DefaultKeySeparatesItems(m: ModelClass, a: Request, b: Request)
    requires b == a.(items := b.items)
    requires PagyItems(a) != PagyItems(b)
    ensures DefaultCacheKey(m, a) != DefaultCacheKey(m, b)
  {
    DefaultKeyShape(m, a);
    DefaultKeyShape(m, b);
    var pre := m.name + "/page:" + IntToString(PagyPage(a)) + "/items:";
    assert PagyPage(b) == PagyPage(a);
    assert ItemsSuffix(m, b) == ItemsSuffix(m, a) by {
      assert RansackText(m, b) == RansackText(m, a) && b.format == a.format;
    }
    if DefaultCacheKey(m, a) == DefaultCacheKey(m, b) {
      CancelFrame(pre, IntToString(PagyItems(a)), IntToString(PagyItems(b)), ItemsSuffix(m, a));
      IntToStringInjective(PagyItems(a), PagyItems(b));
    }
  }

  /** Running a sequence of requests one after another. */
  function Run(m: ModelClass, reqs: seq<Request>, now: int, st: State): (st': State)
    requires Valid(st.db)
    requires WellFormed(m)
    ensures Valid(st'.db)
    decreases |reqs|
  {
    if |reqs| == 0 then st else Run(m, reqs[1..], now, Call(m, reqs[0], now, st).1)
  }

  /** No sequence of create/read/update/delete/unknown calls changes the cache. */
  lemma {:induction false} WritesKeepCache(m: ModelClass, reqs: seq<Request>, now: int, st: State)
    requires Valid(st.db)
    requires WellFormed(m)
    requires forall i | 0 <= i < |reqs| :: !reqs[i].action.Fetch?
    ensures Run(m, reqs, now, st).cache == st.cache
    decreases |reqs|
  {
    if |reqs| > 0 {
      WritesKeepCache(m, reqs[1..], now, Call(m, reqs[0], now, st).1);
    }
  }

  /**
   * A cached page outlives writes: after any create/update/delete calls, a
   * `fetch` whose entry is still live returns the entry as cached before them.
   */
  lemma CachedFetchSurvivesWrites(m: ModelClass, writes: seq<Request>, now: int, st: State, req: Request, later: int)
    requires Valid(st.db)
    requires WellFormed(m)
    requires forall i | 0 <= i < |writes| :: !writes[i].action.Fetch?
    requires Live(st.cache, FetchKey(m, req), later)
    ensures FetchRecords(m, req, later, Run(m, writes, now, st)).0
      == Success(Fetched(st.cache[FetchKey(m, req)].value))
  {
    WritesKeepCache(m, writes, now, st);
  }
}

=== FILE: maybe.dfy ===
/** Ruby's `nil`-or-value, as used for optional request fields and `find_by` results. */
module Maybe {

  datatype Option<+T> = None | Some(value: T) {

    /** The value, or `default` when absent (Ruby's `x || default`). */
    function GetOr(default: T): (r: T)
      ensures Some? ==> r == value
      ensures None? ==> r == default
    {
      match this
      case Some(v) => v
      case None => default
    }
  }
}

=== FILE: paging.dfy ===
/**
 * The part of Pagy both implementations use: the page and items a request asks
 * for, the total count, and the offset/limit window `scope.offset(...).limit(...)`
 * cuts out of the ordered rows.
 */
module Paging {

  /** What `Pagy.new(count:, page:, items:)` is given. */
  datatype PageInfo = PageInfo(count: nat, page: int, items: int)

  function Max(a: int, b: int): int { if a < b then b else a }

  function Min(a: int, b: int): int { if a < b then a else b }

  /** Rows skipped before `page`: `(page - 1) * items`. */
  function Offset(page: int, items: int): int {
    (page - 1) * items
  }

  /** The OFFSET and LIMIT of one paged query. */
  datatype Slice = Slice(offset: int, limit: int)

  /** The OFFSET and LIMIT of page `page` of `items` rows: `offset((page - 1) * items).limit(items)`. */
  function PageSlice(page: int, items: int): Slice {
    Slice(Offset(page, items), items)
  }

  /**
   * SQL `OFFSET offset LIMIT limit` over `xs`: the elements whose positions lie in
   * [offset, offset + limit), clipped to the sequence.
   */
  function Window<T>(xs: seq<T>, offset: int, limit: int): (w: seq<T>)
    ensures |w| == Max(0, Min(|xs|, offset + limit) - Max(0, offset))
    ensures forall i | 0 <= i < |w| :: w[i] == xs[Max(0, offset) + i]
    ensures forall x | x in w :: x in xs
  {
    var lo := Min(|xs|, Max(0, offset));
    var hi := Max(lo, Min(|xs|, offset + limit));
    xs[lo..hi]
  }

  /**
   * The rows of one page: `offset((page - 1) * items).limit(items)`. Pagy raises
   * `OverflowError` before a page past the last one is read; this model gives
   * the empty window there.
   */
  function PageOf<T>(xs: seq<T>, page: int, items: int): (w: seq<T>)
    ensures forall x | x in w :: x in xs
    ensures page >= 1 && items >= 1 ==>
      && 0 <= Offset(page, items)
      && |w| <= items
      && (|w| > 0 ==> Offset(page, items) + |w| <= |xs|)
      && (forall i | 0 <= i < |w| :: w[i] == xs[Offset(page, items) + i])
      && (Offset(page, items) + items <= |xs| ==> |w| == items)
      && (Offset(page, items) >= |xs| ==> w == [])
  {
    assert page >= 1 && items >= 1 ==> Offset(page, items) >= 0 by {
      if page >= 1 && items >= 1 {
        assert page - 1 >= 0;
      }
    }
    Window(xs, Offset(page, items), items)
  }

  /** At a non-negative offset, a window is the slice between the clipped offset and the clipped end. */
  lemma WindowIsSlice<T>(xs: seq<T>, offset: int, limit: int)
    requires offset >= 0 && limit >= 0
    ensures Window(xs, offset, limit) == xs[Min(|xs|, offset)..Min(|xs|, offset + limit)]
  {
  }

  /** Cutting a slice at an inner point and joining the halves gives the slice back. */
  lemma SliceSplit<T>(xs: seq<T>, lo: int, mid: int, hi: int)
    requires 0 <= lo <= mid <= hi <= |xs|
    ensures xs[lo..mid] + xs[mid..hi] == xs[lo..hi]
  {
  }

  /** Two adjacent windows of the same width make one window twice as wide. */
  lemma AdjacentWindows<T>(xs: seq<T>, offset: int, limit: int)
    requires offset >= 0 && limit >= 0
    ensures Window(xs, offset, limit) + Window(xs, offset + limit, limit) == Window(xs, offset, 2 * limit)
  {
    var lo, mid, hi := Min(|xs|, offset), Min(|xs|, offset + limit), Min(|xs|, offset + 2 * limit);
    WindowIsSlice(xs, offset, limit);
    WindowIsSlice(xs, offset + limit, limit);
    WindowIsSlice(xs, offset, 2 * limit);
    SliceSplit(xs, lo, mid, hi);
  }

  /** The next page starts `items` rows later; a real page starts at a non-negative offset. */
  lemma NextOffset(page: int, items: int)
    ensures Offset(page + 1, items) == Offset(page, items) + items
    ensures page >= 1 && items >= 1 ==> Offset(page, items) >= 0
  {
    if page >= 1 && items >= 1 {
      assert (page - 1) * items >= 0;
    }
  }

  /** Consecutive pages tile the rows: page p followed by page p+1 is one longer window. */
  lemma ConsecutivePages<T>(xs: seq<T>, page: int, items: int)
    requires page >= 1 && items >= 1
    ensures Window(xs, Offset(page, items), items) + Window(xs, Offset(page + 1, items), items)
      == Window(xs, Offset(page, items), 2 * items)
  {
    NextOffset(page, items);
    AdjacentWindows(xs, Offset(page, items), items);
  }

  /** Two sequences that are pages `p` and `p + 1` of `xs` join into the double-width window. */
  lemma JoinPages<T>(a: seq<T>, b: seq<T>, xs: seq<T>, page: int, items: int)
    requires page >= 1 && items >= 1
    requires a == Window(xs, Offset(page, items), items)
    requires b == Window(xs, Offset(page + 1, items), items)
    ensures a + b == Window(xs, Offset(page, items), 2 * items)
  {
    ConsecutivePages(xs, page, items);
  }
}

=== FILE: records.dfy ===
/**
 * The record store both CRUD implementations talk to: one ActiveRecord table,
 * its rows keyed by primary key, the collaborators the table's model class
 * brings with it (validation, callbacks, Ransack, SQL ordering, rendering),
 * relations, and the `as_json` snapshot of a record.
 */
module Records {
  import opened Maybe
  import opened Paging

  type Id = nat

  /** Column values of one row, primary key excluded. */
  type Attrs = map<string, string>

  /** Ransack search parameters (`params[:q]`). */
  type FilterParams = map<string, string>

  /** One `where(...)` hash. */
  type Conditions = map<string, string>

  /** A row read out of the table. */
  datatype Record = Record(id: Id, attrs: Attrs)

  /** A table: its rows by primary key and the auto-increment counter. */
  datatype Db = Db(rows: map<Id, Attrs>, nextId: Id)

  /** Every stored primary key was handed out by the counter. */
  predicate Valid(db: Db) {
    forall id | id in db.rows :: id < db.nextId
  }

  /**
   * The model class and everything the CRUD code reaches through it that is
   * not shown in this repository. Each field is a collaborator the code calls
   * but whose behaviour lives in Rails, Ransack or the application's models.
   */
  datatype ModelClass = ModelClass(
    /** `model.name`, e.g. "User". */
    name: string,
    /** `model.name.underscore`, e.g. "user". */
    underscoredName: string,
    /** `errors.full_messages` after validating these attributes; empty means valid. */
    validate: Attrs -> seq<string>,
    /**
     * `Some(messages)` when a save callback (`before_save`, `before_create`,
     * `before_update`) aborts saving these valid attributes, with whatever it
     * left in `errors`. The id is `None` for a record not yet created.
     */
    saveBlock: (Option<Id>, Attrs) -> Option<seq<string>>,
    /** `Some(messages)` when a destroy callback aborts the destroy. */
    destroyBlock: Record -> Option<seq<string>>,
    /** Whether a row is in `ransack(params).result`. */
    ransack: (FilterParams, Record) -> bool,
    /** `Hash#to_param` of the Ransack parameters. */
    toParam: FilterParams -> string,
    /** Whether a row satisfies one `where(...)` hash. */
    satisfies: (Conditions, Record) -> bool,
    /**
     * The order the database returns matching rows in when no ORDER BY is
     * given. SQL lets it differ from one query to the next, so it may depend
     * on the query's OFFSET and LIMIT (`None` for a query without them).
     */
    unordered: (seq<Record>, Option<Slice>) -> seq<Record>,
    /**
     * The order an explicit ORDER BY clause other than `id asc` produces. Rows
     * that tie under the clause may come in a different order in each query.
     */
    arrange: (string, seq<Record>, Option<Slice>) -> seq<Record>,
    /** `ApplicationController.render` of one record and of a list. */
    render: Record -> string,
    renderAll: seq<Record> -> string
  )

  /** `model.find_by(id: id)`; a `nil` id finds nothing. */
  function FindBy(db: Db, id: Option<Id>): (r: Option<Record>)
    ensures r.Some? <==> id.Some? && id.value in db.rows
    ensures r.Some? ==> r.value == Record(id.value, db.rows[id.value])
  {
    if id.Some? && id.value in db.rows then Some(Record(id.value, db.rows[id.value])) else None
  }

  /** Persisting a new row: it takes the next primary key. */
  function Insert(db: Db, attrs: Attrs): (res: (Db, Record))
    ensures res.1 == Record(db.nextId, attrs)
    ensures res.0.rows == db.rows[db.nextId := attrs]
    ensures Valid(db) ==> Valid(res.0)
    ensures Valid(db) ==> db.nextId !in db.rows && |res.0.rows| == |db.rows| + 1
  {
    (Db(db.rows[db.nextId := attrs], db.nextId + 1), Record(db.nextId, attrs))
  }

  /** Strictly increasing primary keys. */
  predicate Ascending(rs: seq<Record>) {
    forall i, j | 0 <= i < j < |rs| :: rs[i].id < rs[j].id
  }

  /** The primary keys of some rows. */
  function Ids(rs: seq<Record>): (ids: set<Id>)
    ensures forall r | r in rs :: r.id in ids
    ensures forall id | id in ids :: exists i | 0 <= i < |rs| :: rs[i].id == id
    decreases |rs|
  {
    if |rs| == 0 then {} else {rs[0].id} + Ids(rs[1..])
  }

  /** Dropping the first of some ascending rows leaves them ascending. */
  lemma AscendingTail(rs: seq<Record>)
    requires Ascending(rs) && |rs| > 0
    ensures Ascending(rs[1..])
  {
    var tail := rs[1..];
    forall i, j | 0 <= i < j < |tail| ensures tail[i].id < tail[j].id {
      assert tail[i] == rs[i + 1] && tail[j] == rs[j + 1];
    }
  }

  /** Strictly ascending rows have distinct keys: as many keys as rows. */
  lemma {:induction false} AscendingIds(rs: seq<Record>)
    requires Ascending(rs)
    ensures |Ids(rs)| == |rs|
    ensures |rs| > 0 ==> forall id | id in Ids(rs) :: rs[0].id <= id
    decreases |rs|
  {
    if |rs| > 0 {
      var tail := rs[1..];
      var t := Ids(tail);
      AscendingTail(rs);
      AscendingIds(tail);
      assert Ids(rs) == {rs[0].id} + t;
      if |tail| > 0 {
        assert rs[0].id < tail[0].id;
        assert forall id | id in t :: rs[0].id < id;
      }
      assert rs[0].id !in t;
      assert |{rs[0].id} + t| == 1 + |t|;
    }
  }

  /** What `RowsFrom(db, lo)` promises: the stored rows with key in [lo, nextId), ascending. */
  predicate RowsFromFacts(db: Db, lo: nat, rs: seq<Record>) {
    && Ascending(rs)
    && (forall i | 0 <= i < |rs| :: lo <= rs[i].id && rs[i].id in db.rows && db.rows[rs[i].id] == rs[i].attrs)
    && (forall id | id in db.rows && lo <= id < db.nextId :: Record(id, db.rows[id]) in rs)
  }

  /** Putting the row with key `lo` in front of the rows from `lo + 1` gives the rows from `lo`. */
  lemma PrependRow(db: Db, lo: nat, rest: seq<Record>)
    requires lo in db.rows
    requires RowsFromFacts(db, lo + 1, rest)
    ensures RowsFromFacts(db, lo, [Record(lo, db.rows[lo])] + rest)
  {
    var rs := [Record(lo, db.rows[lo])] + rest;
    assert forall i | 0 < i < |rs| :: rs[i] == rest[i - 1];
    forall id | id in db.rows && lo <= id < db.nextId ensures Record(id, db.rows[id]) in rs {
      if id == lo {
        assert rs[0] == Record(id, db.rows[id]);
      } else {
        assert Record(id, db.rows[id]) in rest;
      }
    }
  }

  /** Rows with primary key in [lo, nextId), in key order. */
  function RowsFrom(db: Db, lo: nat): (rs: seq<Record>)
    ensures RowsFromFacts(db, lo, rs)
    decreases db.nextId - lo
  {
    if lo >= db.nextId then []
    else
      var rest := RowsFrom(db, lo + 1);
      if lo in db.rows then
        PrependRow(db, lo, rest);
        [Record(lo, db.rows[lo])] + rest
      else rest
  }

  /** The whole table in primary-key order, as `ORDER BY id ASC` reads it. */
  function AllRows(db: Db): (rs: seq<Record>)
    requires Valid(db)
    ensures Ascending(rs)
    ensures forall r :: r in rs <==> r.id in db.rows && db.rows[r.id] == r.attrs
  {
    var rs := RowsFrom(db, 0);
    assert forall r | r in rs :: r.id in db.rows && db.rows[r.id] == r.attrs by {
      forall r | r in rs ensures r.id in db.rows && db.rows[r.id] == r.attrs {
        var i :| 0 <= i < |rs| && rs[i] == r;
      }
    }
    rs
  }

  /** The rows of `rs` that `keep` accepts, in their original order. */
  function Where(rs: seq<Record>, keep: Record -> bool): (w: seq<Record>)
    ensures |w| <= |rs|
    ensures forall r :: r in w <==> r in rs && keep(r)
    ensures Ascending(rs) ==> Ascending(w)
    decreases |rs|
  {
    if |rs| == 0 then []
    else
      var rest := Where(rs[1..], keep);
      if keep(rs[0]) then
        assert Ascending(rs) ==> Ascending([rs[0]] + rest) by {
          if Ascending(rs) {
            AscendingTail(rs);
            PrependAscending(rs, rest);
          }
        }
        [rs[0]] + rest
      else rest
  }

  /** Putting the first of some ascending rows before an ascending selection of the others keeps them ascending. */
  lemma PrependAscending(rs: seq<Record>, rest: seq<Record>)
    requires |rs| > 0 && Ascending(rs) && Ascending(rest)
    requires forall r | r in rest :: r in rs[1..]
    ensures Ascending([rs[0]] + rest)
  {
    forall r | r in rest ensures rs[0].id < r.id {
      var j :| 0 <= j < |rs[1..]| && rs[1..][j] == r;
      assert rs[j + 1] == r;
    }
  }

  /** A filter that accepts every row keeps the rows as they are. */
  lemma {:induction false} WhereKeepsAll(rs: seq<Record>, keep: Record -> bool)
    requires forall r | r in rs :: keep(r)
    ensures Where(rs, keep) == rs
    decreases |rs|
  {
    if |rs| > 0 {
      var rest := rs[1..];
      assert keep(rs[0]);
      assert forall r | r in rest :: r in rs;
      WhereKeepsAll(rest, keep);
      assert Where(rs, keep) == [rs[0]] + Where(rest, keep);
      assert rs == [rs[0]] + rest;
    }
  }

  /** An ORDER BY: the primary key ascending, or some other SQL clause. */
  datatype Order = IdAsc | Clause(sql: string)

  /** An `ActiveRecord::Relation`: accumulated `where` hashes and an optional order. */
  datatype Relation = Relation(conditions: seq<Conditions>, order: Option<Order>)

  /** `model.all`. */
  const All: Relation := Relation([], None)

  predicate SatisfiesAll(m: ModelClass, conds: seq<Conditions>, r: Record) {
    forall i | 0 <= i < |conds| :: m.satisfies(conds[i], r)
  }

  /**
   * SQL leaves the order of an unordered result, and the meaning of an ORDER BY
   * clause, to the database, but never which rows the result holds: both
   * orderings, in every query, are permutations of the rows they are given.
   */
  ghost predicate WellFormed(m: ModelClass) {
    && (forall xs: seq<Record>, cut: Option<Slice> :: multiset(m.unordered(xs, cut)) == multiset(xs))
    && (forall sql: string, xs: seq<Record>, cut: Option<Slice> :: multiset(m.arrange(sql, xs, cut)) == multiset(xs))
  }

  /** The rows a relation selects, in primary-key order: what `relation.count` counts. */
  function Matching(m: ModelClass, db: Db, rel: Relation): (rs: seq<Record>)
    requires Valid(db)
    ensures Ascending(rs)
    ensures forall r :: r in rs <==>
      r.id in db.rows && db.rows[r.id] == r.attrs && SatisfiesAll(m, rel.conditions, r)
  {
    Where(AllRows(db), r => SatisfiesAll(m, rel.conditions, r))
  }

  /**
   * The rows a relation loads, in the order its ORDER BY (or lack of one) gives
   * in the query with OFFSET and LIMIT `cut`, before that window is taken.
   */
  function Load(m: ModelClass, db: Db, rel: Relation, cut: Option<Slice>): (rs: seq<Record>)
    requires Valid(db)
    requires WellFormed(m)
    ensures multiset(rs) == multiset(Matching(m, db, rel))
    ensures |rs| == |Matching(m, db, rel)|
    ensures forall r :: r in rs <==>
      r.id in db.rows && db.rows[r.id] == r.attrs && SatisfiesAll(m, rel.conditions, r)
  {
    var matching := Matching(m, db, rel);
    var rs := match rel.order
      case None => m.unordered(matching, cut)
      case Some(IdAsc) => matching
      case Some(Clause(sql)) => m.arrange(sql, matching, cut);
    assert |rs| == |multiset(rs)|;
    assert forall r :: r in rs <==> r in multiset(rs);
    rs
  }

  /** Ordering by primary key yields exactly the matching rows, ascending, in every query. */
  lemma LoadById(m: ModelClass, db: Db, rel: Relation, cut: Option<Slice>)
    requires Valid(db)
    requires WellFormed(m)
    requires rel.order == Some(IdAsc)
    ensures Load(m, db, rel, cut) == Matching(m, db, rel)
    ensures Ascending(Load(m, db, rel, cut))
  {
  }

  /** One JSON value of an `as_json` hash. */
  datatype JsonValue = JInt(n: int) | JStr(s: string)

  type Json = map<string, JsonValue>

  /** `record.as_json`: the column values plus the primary key under "id". */
  function AsJson(r: Record): (j: Json)
    ensures "id" in j && j["id"] == JInt(r.id)
    ensures forall k | k in r.attrs && k != "id" :: k in j && j[k] == JStr(r.attrs[k])
    ensures j.Keys == r.attrs.Keys + {"id"}
  {
    (map k | k in r.attrs :: JStr(r.attrs[k]))["id" := JInt(r.id)]
  }

  /** Reading a record back out of its JSON snapshot. */
  function FromJson(j: Json): Option<Record> {
    if "id" in j && j["id"].JInt? && j["id"].n >= 0 && (forall k | k in j && k != "id" :: j[k].JStr?) then
      Some(Record(j["id"].n, map k | k in j && k != "id" :: j[k].s))
    else None
  }

  /** The JSON snapshot of a record determines the record. */
  lemma JsonRoundTrip(r: Record)
    requires "id" !in r.attrs
    ensures FromJson(AsJson(r)) == Some(r)
  {
    var j := AsJson(r);
    var back := map k | k in j && k != "id" :: j[k].s;
    assert back == r.attrs;
  }

  /** A record as the interactor hands it back, per the requested format. */
  datatype Shown = AsObject(record: Record) | AsJsonObject(json: Json) | AsHtml(html: string)

  /** A page of records as the interactor hands it back. */
  datatype ShownList = Objects(records: seq<Record>) | JsonList(items: seq<Json>) | Html(html: string)

  /** `format_record`: `:json` gives `as_json`, `:turbo_stream` a render, anything else the record. */
  function FormatRecord(m: ModelClass, format: Option<string>, r: Record): (s: Shown)
    ensures format == Some("json") ==> s == AsJsonObject(AsJson(r))
    ensures format != Some("json") && format != Some("turbo_stream") ==> s == AsObject(r)
  {
    if format == Some("json") then AsJsonObject(AsJson(r))
    else if format == Some("turbo_stream") then AsHtml(m.render(r))
    else AsObject(r)
  }

  /** `format_records`: the list counterpart of `FormatRecord`, element by element. */
  function FormatRecords(m: ModelClass, format: Option<string>, rs: seq<Record>): (s: ShownList)
    ensures format == Some("json") ==>
      s.JsonList? && |s.items| == |rs| &&
      forall i | 0 <= i < |rs| :: AsJsonObject(s.items[i]) == FormatRecord(m, format, rs[i])
    ensures format != Some("json") && format != Some("turbo_stream") ==> s.Objects? && s.records == rs
  {
    if format == Some("json") then JsonList(seq(|rs|, i requires 0 <= i < |rs| => AsJson(rs[i])))
    else if format == Some("turbo_stream") then Html(m.renderAll(rs))
    else Objects(rs)
  }
}

=== FILE: text.dfy ===
/**
 * The pieces of Ruby's String and Array behaviour that the CRUD layer relies on
 * when it builds cache keys and error messages: `Integer#to_s` in base 10,
 * `String#to_i` as its inverse, `Array#join`, ActiveSupport's
 * `Array#to_sentence`, and space-separated class lists.
 */
module Text {

  predicate IsDigit(c: char) {
    '0' <= c <= '9'
  }

  predicate AllDigits(s: string) {
    forall i | 0 <= i < |s| :: IsDigit(s[i])
  }

  function DigitChar(d: nat): (c: char)
    requires d < 10
    ensures IsDigit(c)
  {
    (d + '0' as int) as char
  }

  function DigitValue(c: char): (d: nat)
    requires IsDigit(c)
    ensures d < 10
    ensures DigitChar(d) == c
  {
    c as int - '0' as int
  }

  /** `Integer#to_s` for a non-negative integer: shortest decimal form, no sign. */
  function NatToString(n: nat): (s: string)
    ensures |s| > 0
    ensures AllDigits(s)
    ensures n >= 10 <==> |s| >= 2
    decreases n
  {
    if n < 10 then [DigitChar(n)] else NatToString(n / 10) + [DigitChar(n % 10)]
  }

  /** `String#to_i` on a string of decimal digits. */
  function ParseNat(s: string): (n: nat)
    requires AllDigits(s)
    decreases |s|
  {
    if |s| == 0 then 0 else 10 * ParseNat(s[..|s| - 1]) + DigitValue(s[|s| - 1])
  }

  /** `to_i` undoes `to_s`. */
  lemma {:induction false} ParseNatToString(n: nat)
    ensures ParseNat(NatToString(n)) == n
    decreases n
  {
    var s := NatToString(n);
    if n >= 10 {
      assert s[..|s| - 1] == NatToString(n / 10);
      ParseNatToString(n / 10);
    }
  }

  lemma NatToStringInjective(a: nat, b: nat)
    requires NatToString(a) == NatToString(b)
    ensures a == b
  {
    ParseNatToString(a);
    ParseNatToString(b);
  }

  /** `Integer#to_s` for any integer: a leading '-' for negatives. */
  function IntToString(i: int): (s: string)
    ensures |s| > 0
    ensures '/' !in s
    ensures i >= 0 ==> AllDigits(s)
    ensures i < 0 ==> s[0] == '-' && AllDigits(s[1..])
  {
    if i < 0 then "-" + NatToString(-i) else NatToString(i)
  }

  /** `String#to_i` on the text `IntToString` produces. */
  function ParseInt(s: string): (i: int)
    requires |s| > 0
    requires (s[0] == '-' && AllDigits(s[1..])) || AllDigits(s)
  {
    if s[0] == '-' then 0 - ParseNat(s[1..]) else ParseNat(s)
  }

  lemma IntRoundTrip(i: int)
    ensures ParseInt(IntToString(i)) == i
  {
    var s := IntToString(i);
    if i < 0 {
      assert s[1..] == NatToString(-i);
      ParseNatToString(-i);
    } else {
      ParseNatToString(i);
    }
  }

  lemma IntToStringInjective(a: int, b: int)
    requires IntToString(a) == IntToString(b)
    ensures a == b
  {
    IntRoundTrip(a);
    IntRoundTrip(b);
  }

  /** Strings that agree around a middle part agree in the middle too. */
  lemma CancelFrame(pre: string, x: string, y: string, rest: string)
    requires pre + x + rest == pre + y + rest
    ensures x == y
  {
    assert |x| == |y|;
    assert x == (pre + x + rest)[|pre|..|pre| + |x|];
    assert y == (pre + y + rest)[|pre|..|pre| + |y|];
  }

  /** `Array#join(sep)`. */
  function Join(words: seq<string>, sep: string): (s: string)
    ensures |words| == 1 ==> s == words[0]
    ensures |words| >= 1 ==> words[0] <= s
    decreases |words|
  {
    if |words| == 0 then ""
    else if |words| == 1 then words[0]
    else words[0] + sep + Join(words[1..], sep)
  }

  /** Joining five words. */
  lemma JoinFive(a: string, b: string, c: string, d: string, e: string, sep: string)
    ensures Join([a, b, c, d, e], sep) == a + sep + b + sep + c + sep + d + sep + e
  {
    assert Join([e], sep) == e;
    assert Join([d, e], sep) == d + sep + e by {
      assert [d, e][1..] == [e];
    }
    assert Join([c, d, e], sep) == c + sep + (d + sep + e) by {
      assert [c, d, e][1..] == [d, e];
    }
    assert Join([b, c, d, e], sep) == b + sep + (c + sep + (d + sep + e)) by {
      assert [b, c, d, e][1..] == [c, d, e];
    }
    assert Join([a, b, c, d, e], sep) == a + sep + (b + sep + (c + sep + (d + sep + e))) by {
      assert [a, b, c, d, e][1..] == [b, c, d, e];
    }
  }

  /**
   * ActiveSupport's `Array#to_sentence` with its English defaults:
   * "", "a", "a and b", "a, b, and c".
   */
  function ToSentence(words: seq<string>): (s: string)
    ensures |words| == 0 ==> s == ""
    ensures |words| == 1 ==> s == words[0]
    ensures |words| >= 1 ==> words[0] <= s
    ensures |words| >= 2 ==> IsSuffix(words[|words| - 1], s)
  {
    if |words| == 0 then ""
    else if |words| == 1 then words[0]
    else if |words| == 2 then words[0] + " and " + words[1]
    else Join(words[..|words| - 1], ", ") + ", and " + words[|words| - 1]
  }

  predicate IsSuffix(t: string, s: string) {
    |t| <= |s| && s[|s| - |t|..] == t
  }

  /** A class attribute: tokens separated by single spaces. */
  function Unwords(tokens: seq<string>): (s: string)
    decreases |tokens|
  {
    if |tokens| == 0 then ""
    else if |tokens| == 1 then tokens[0]
    else tokens[0] + " " + Unwords(tokens[1..])
  }

  /** Appending words to a non-empty class list is string concatenation with a space. */
  lemma {:induction false} UnwordsAppend(a: seq<string>, b: seq<string>)
    requires |a| > 0 && |b| > 0
    ensures Unwords(a + b) == Unwords(a) + " " + Unwords(b)
    decreases |a|
  {
    if |a| == 1 {
      assert (a + b)[1..] == b;
    } else {
      assert (a + b)[1..] == a[1..] + b;
      UnwordsAppend(a[1..], b);
    }
  }

  /** Adding words at the end keeps the string written so far as a prefix. */
  lemma UnwordsPrefix(a: seq<string>, b: seq<string>)
    requires |a| > 0
    ensures Unwords(a) <= Unwords(a + b)
  {
    if |b| > 0 {
      UnwordsAppend(a, b);
    } else {
      assert a + b == a;
    }
  }

  /** Number of tokens that belong to `group`. */
  function Count(tokens: seq<string>, group: set<string>): (n: nat)
    ensures n <= |tokens|
    ensures n == 0 <==> forall i | 0 <= i < |tokens| :: tokens[i] !in group
    decreases |tokens|
  {
    if |tokens| == 0 then 0
    else (if tokens[0] in group then 1 else 0) + Count(tokens[1..], group)
  }

  lemma {:induction false} CountAppend(a: seq<string>, b: seq<string>, group: set<string>)
    ensures Count(a + b, group) == Count(a, group) + Count(b, group)
    decreases |a|
  {
    if |a| == 0 {
      assert a + b == b;
    } else {
      assert (a + b)[1..] == a[1..] + b;
      CountAppend(a[1..], b, group);
    }
  }
}
